=== FILE: README.md ===
# vuetify-json-form: schema normalisation and the dialog stack, in Dafny

vuetify-json-form renders forms from a JSON schema with Vuetify controls.
Each control type has a parser that turns its raw definition into the form's
initial model (`getDefault`) and adjusts the definition before the host
framework builds it. The widgets hold a few pure helpers. A `DialogForms`
component keeps a stack of modal sub-forms for repeat controls.

This project models those pieces as pure functions over an immutable JSON
value and proves what they promise.

- `JsValue` (js_value.dfy): the JavaScript semantics the code relies on.
  It covers truthiness, `== null`, `typeof`, `||`, own property reads and
  strict-mode writes, object spread, conversion to string and to number, and `<`.
  A `Result` separates a value from a thrown `TypeError`/`ReferenceError`.
  It also has an `Unmodelled` outcome for JavaScript behaviour the model
  does not represent.
- `Parsers` (parsers.dfy): the `getDefault` methods of the hidden, select,
  combobox, tabs, grouped-repeat, grouped-repeat-with-variants, variant and
  range parsers, plus `SelectParser.getConfig`, `VariantParser.getConfig` and
  `IconParser.parse`.
- `SelectItems` (select_items.dfy): `SelectParser.getItems`. It has a
  reference definition of the flattened list and a method that follows the
  source's loop with its `first` flag. Lemmas cover empty groups, headers,
  dividers and titles.
- `Widgets` (widgets.dfy): `$controlIcon`, `setDeviceProps`/`colProps`,
  `getTickLabel` and both `canAddItem` computations.
- `DialogStack` (dialog_stack.dfy): the dialog stack as a state machine.
  Its events are `pushForm`, `popForm`, the delayed decrement `popForm`
  schedules, `beforeEnter`, `afterLeave` and the `currentDialogIndex`
  watcher. `clearForms` runs only inside the watcher, once the index is
  negative; called on its own at a non-negative index it would leave the
  index pointing past an empty list. `pushUnparsedForm` and `onCancel` are
  modelled as functions on top of `pushForm` and `popForm`, with `onCancel`
  calling `popForm` as written. With `popForm` corrected (see Findings),
  every event keeps the stack's invariant. As written it does too when the
  hide delay is not positive, since then nothing is ever scheduled.

All source paths below are in the repository's built bundle
`dist/lib.cjs.js`.

## Model

| member | source | states |
|---|---|---|
| Parsers.HiddenDefault | dist/lib.cjs.js:9-12 | An own `default` key wins whatever its value, even null or undefined. Without one the result is null exactly when the control is nullable, else undefined. |
| Parsers.SelectDefault | dist/lib.cjs.js:102-108 | With `config.multiple` the result is always an array: the declared default exactly when that is an array, else `[]`. Otherwise the result is nullish exactly when the default is. A non-null default is kept, and a nullish one gives null exactly when nullable. |
| Parsers.ComboboxDefault | dist/lib.cjs.js:282-288 | The same guarantees as the select default: an array under `multiple`, otherwise the non-null default or the null/undefined fallback. |
| Parsers.HiddenAndSelectDisagreeOnlyOnDeclaredNull | dist/lib.cjs.js:102-108 | For a single-valued control, the hidden parser's own-key test and the selection parsers' `== null` test differ exactly when a null or undefined default is declared that differs from the fallback. |
| Parsers.SelectConfig | dist/lib.cjs.js:110-122 | The built configuration has the fixed keys, the spread config's keys and `group`. A key from `definition.config` overrides a fixed default. `group` always comes from the parser instance. |
| Parsers.SelectConfigMultipleAgrees | dist/lib.cjs.js:162-170 | `parse` reads `multiple` from the built configuration while `getDefault` reads `definition.config.multiple`. The two are truthy together for every definition, including array and string configs. |
| Parsers.TabsFold | dist/lib.cjs.js:47-53 | The loop over the tab items succeeds exactly when no item is null or undefined (otherwise TypeError). Its keys are exactly the truthy tab names, each mapped to `{}`. |
| Parsers.TabsDefault | dist/lib.cjs.js:44-55 | A non-array `items` gives `{}`. An array gives one `{}` per truthy-named tab and ignores unnamed tabs. A null tab throws. |
| Parsers.FillRegions | dist/lib.cjs.js:380-386 | Succeeds exactly when no region is null or undefined. The result holds every key of the declared default plus every region name. A region's existing array is kept, anything else becomes `[]`, and every other key is unchanged. |
| Parsers.GroupRepeatDefault | dist/lib.cjs.js:371-388 | A missing config throws. A non-array `regions` gives a copy of the object default. Otherwise every region name maps to an array, existing arrays kept, and all other declared keys are carried over. |
| Parsers.GroupRepeatVariantsDefault | dist/lib.cjs.js:430-447 | The same outcome as the grouped repeat's default. |
| Parsers.GroupRepeatDefaultIdempotent | dist/lib.cjs.js:371-388 | Computing the default again from the result gives the result back. |
| Parsers.VariantDefault | dist/lib.cjs.js:504-513 | Always an object holding the discriminator key (`config.variantField`, else `variant_name`) and every key of an object default. A declared value for the discriminator wins; otherwise it is null. |
| Parsers.VariantConfig | dist/lib.cjs.js:515-521 | A null or undefined config throws a TypeError. A config whose `variantField` is truthy is returned unchanged. An object config with a falsy one gets `variantField: 'variant_name'` and nothing else changes. A string, number or boolean config with a falsy one throws a TypeError (strict-mode write). On success the config's `variantField` is truthy. |
| Parsers.VariantConfigAgreesWithDefault | dist/lib.cjs.js:504-521 | The key the configuration names is the key the default sets, and that key is present in the default. |
| Parsers.RangeDefaultAsWritten | dist/lib.cjs.js:568-581 | As written, the method throws a ReferenceError exactly when the definition has an own `default`. |
| Parsers.RangeDefault | dist/lib.cjs.js:568-581 | Corrected. An array default gives a pair of numbers (or NaN), and a numeric pair is kept as is. Any other default gives null when nullable and `[0, 100]` otherwise. |
| Parsers.RangeDefaultFixAgrees | dist/lib.cjs.js:568-581 | Without a declared default, the code as written and the corrected code agree on every definition. |
| Parsers.RangeDefaultTypoWitness | dist/lib.cjs.js:570-572 | The declared default `[10, 20]` throws as written, and the corrected code gives `[10, 20]`. |
| Parsers.IconValidation | dist/lib.cjs.js:252-265 | On success `validation` exists with a truthy `pattern`, and no key other than `validation` changes. An existing pattern leaves the definition unchanged. A missing validation becomes `{pattern}`. An object validation gains the pattern. It fails exactly for a truthy non-object validation without a pattern: a TypeError for a string, number or boolean, `Unmodelled` for an array. |
| Parsers.IconValidationIdempotent | dist/lib.cjs.js:252-265 | Parsing the rewritten definition again changes nothing. |
| SelectItems.FillTitle | dist/lib.cjs.js:153-155 | A null or undefined item throws a TypeError. An item with a truthy title is returned unchanged. An object item with a falsy title gets the title `''` and nothing else changes. A string, number or boolean item with a falsy title throws a TypeError (strict-mode write). On success the title is truthy or `''`. |
| SelectItems.FillTitles | dist/lib.cjs.js:152-157 | The list succeeds exactly when every item does. It then has the same length, with each item's title filled in at its position. |
| SelectItems.Blocks | dist/lib.cjs.js:141-158 | When the groups' blocks are built, no group was null or undefined. |
| SelectItems.FillGroupItems | dist/lib.cjs.js:152-157 | The loop over one group's items computes the reference list of filled items, including the first failure. |
| SelectItems.FlattenGroups | dist/lib.cjs.js:139-159 | The loop with its `first` flag computes the reference grouped list: blocks in order with one divider between consecutive blocks, or the first failure. |
| SelectItems.GetItems | dist/lib.cjs.js:125-160 | Items that are not an array give `[]`. Without `group` the items are returned unchanged. With `group` the groups are flattened using the property names from the built configuration. |
| SelectItems.NonEmptyGroups | dist/lib.cjs.js:142-144 | Every kept group is non-null and has a non-empty items array. |
| SelectItems.NonEmptyGroupsFilter | dist/lib.cjs.js:142-144 | A group is kept exactly when its items are a non-empty array. Kept groups come from the input. |
| SelectItems.BlocksOfKeptGroups | dist/lib.cjs.js:141-158 | Flattening succeeds exactly when no group is nullish and every kept group's items take a title. There is then exactly one block per kept group, in order, made of the group's header followed by its filled items. |
| SelectItems.GroupedDividers | dist/lib.cjs.js:145-150 | With n kept groups, the flattened list has n-1 dividers beyond any divider-shaped items, and its length is the total block length plus n-1. |
| SelectItems.GroupedTitlesSet | dist/lib.cjs.js:149-156 | Every element of the flattened list is a divider, a header, or an item whose title is set. |
| SelectItems.IntersperseMembers | dist/lib.cjs.js:145-151 | Every element of the joined list is the separator or comes from one of the blocks. |
| Widgets.SplitJoin | dist/lib.cjs.js:4164 | Splitting on a character and joining again gives the string back, and no part contains the separator. |
| Widgets.ControlIcon | dist/lib.cjs.js:4157-4166 | A non-string gives undefined and a string without `:` is returned as is. Otherwise the result is the text before the first `:`, then " fa-", then the text up to the next `:` or the end. |
| Widgets.ControlIconOfSetAndName | dist/lib.cjs.js:4157-4166 | `set:name` becomes `set fa-name`. |
| Widgets.SetDeviceProps | dist/lib.cjs.js:2342-2356 | A null value throws (`typeof null` is 'object'). An object adds exactly one flag per device key it holds. An array adds nothing. A truthy scalar adds one flag under a non-empty default prefix. Every existing flag is kept. |
| Widgets.ColProps | dist/lib.cjs.js:2329-2338 | Never throws. The flags are exactly the size flags (`md` default prefix) together with the offset flags (`offset-` prefix, `offset-md` default), each present only when that setting is truthy. |
| Widgets.SetDevicePropsIdempotent | dist/lib.cjs.js:2342-2356 | For every container and props, setting the same props a second time adds no flag. |
| Widgets.ColPropsOfNumbers | dist/lib.cjs.js:2329-2338 | A numeric size and offset give exactly the flags `md<size>` and `offset-md<offset>`. |
| Widgets.ColPropsOfObjects | dist/lib.cjs.js:2329-2356 | For every device-keyed size and offset object, the flags are exactly one per device key of the size and one per device key of the offset, the latter prefixed `offset-`. |
| Widgets.TickLabel | dist/lib.cjs.js:932-943 | With a step other than 1 the value itself is shown. Without labels and with a numeric or missing minimum, the value is shown. A label is shown only if there are labels and it is not null. |
| Widgets.TickLabelFromArray | dist/lib.cjs.js:932-943 | With a unit step, the tick `minimum + i` shows the i-th label when that label exists and is not null. Otherwise (off either end, or a null label) it shows its own value. |
| Widgets.TickLabelFalsyMinimum | dist/lib.cjs.js:938 | A missing or otherwise falsy minimum gives the same label as a minimum of 0, as the `or 0` fallback reads it. |
| Widgets.TickLabelMissingMinimum | dist/lib.cjs.js:932-943 | With a unit step and no minimum, the tick `i` shows the i-th label when that label exists and is not null, and its own value otherwise. |
| Widgets.CanAddItem | dist/lib.cjs.js:3253-3262 | A falsy or negative max imposes no bound, and an empty (falsy) model always has room. For a positive max and a list model, the result is `length < max`. |
| Widgets.CanAddItemKeepsBound | dist/lib.cjs.js:3253-3262 | For a positive max, adding is allowed exactly when the list one longer still fits the bound. |
| Widgets.CanAddRegionItem | dist/lib.cjs.js:3633-3646 | The same bound applied to the list the model holds under the region's name. A null model throws once a positive bound is read. |
| DialogStack.Initial | dist/lib.cjs.js:1439-1454 | The initial data is a consistent stack with no dialog and no current dialog. Actions are enabled, the modal is hidden and nothing is scheduled. |
| DialogStack.CurrentDialog | dist/lib.cjs.js:1483-1489 | No dialog at a negative index. At an index inside the list, the dialog at that index. |
| DialogStack.NewDialog | dist/lib.cjs.js:1534-1548 | Null or undefined options throw. Each field takes the option of the same name (`items` for the form) when that option is truthy. Otherwise it takes its fallback: `[]` for form and path, `{}` for validator, model and actions, undefined for name, and null for title, button and cancelButton. The form, validator, model, actions and path are always truthy. |
| DialogStack.PushForm | dist/lib.cjs.js:1529-1552 | Nothing happens while actions are disabled. Otherwise exactly one dialog is appended and the index grows by one. Nullish options throw. |
| DialogStack.PushUnparsedForm | dist/lib.cjs.js:1519-1528 | It throws exactly when the control-list parser throws, with the same error, whether or not actions are enabled. Otherwise, while disabled nothing changes. When enabled, it appends exactly one dialog and keeps the earlier ones. When a model argument is passed, the new dialog's model is that model, or `{}` if it is falsy. When it is omitted, as at every call in the bundle, the model is the form's own `model`, or `{}` if that is falsy. Its form is the parsed items. |
| DialogStack.PopFormAsWritten | dist/lib.cjs.js:1553-1570 | A negative index is left alone. At index 0 with a hide delay, the modal is hidden and one more decrement is scheduled, whatever is already pending. Otherwise the index drops by one at once, the transition becomes `pop`, and nothing else changes. The list is never touched. |
| DialogStack.PopFormAgreesWhenNothingPending | dist/lib.cjs.js:1553-1570 | With no decrement pending, the corrected `popForm` is `popForm` as written. |
| DialogStack.PopForm | dist/lib.cjs.js:1553-1570 | Corrected. Once every open dialog is already scheduled to close, the pop is ignored. Otherwise the index after all scheduled decrements drops by exactly one, immediately when not closing the last dialog. |
| DialogStack.HideElapsed | dist/lib.cjs.js:1561-1564 | The scheduled decrement lowers the index by one, sets the transition to `pop` and consumes one pending timer. The list, the actions flag, the modal flag and the hide delay are unchanged. |
| DialogStack.BeforeEnter | dist/lib.cjs.js:1571-1574 | Actions become disabled, and the list and index are unchanged. |
| DialogStack.AfterLeave | dist/lib.cjs.js:1575-1582 | The last dialog is dropped exactly when it lies above the current index. Actions are enabled again and the index is unchanged. |
| DialogStack.ClearForms | dist/lib.cjs.js:1515-1518 | Every dialog is dropped, and the index and enabled flag are kept. |
| DialogStack.IndexSettled | dist/lib.cjs.js:1456-1471 | The modal is shown exactly when the index is not negative. The list is kept when the index is not negative and cleared when it is. The index, the actions flag, the pending timers, the transition and the hide delay are unchanged. |
| DialogStack.OnCancel | dist/lib.cjs.js:1583-1593 | The cancel is accepted unless the dialog's cancel action returns exactly `false`. A refused cancel changes nothing. An accepted one runs `popForm` as written: at a non-negative index it lowers the index that remains after every scheduled decrement by exactly one, even when a decrement is already pending. The list is never touched. |
| DialogStack.OnCancelCorrected | dist/lib.cjs.js:1583-1593 | Corrected. The same acceptance rule, but an accepted cancel is ignored once every open dialog is already scheduled to close. Otherwise it lowers that index by exactly one. |
| DialogStack.OnCancelAgreesWhenNothingPending | dist/lib.cjs.js:1583-1593 | With no decrement pending, the cancel as written and the corrected cancel leave the same stack. |
| DialogStack.StepPreservesValid | dist/lib.cjs.js:1529-1582 | Every event keeps the stack consistent: the index stays below the list length and is at least -1 once every scheduled decrement has run. |
| DialogStack.RunPreservesValid | dist/lib.cjs.js:1529-1582 | Any sequence of events from a consistent stack keeps it consistent. |
| DialogStack.StepAsWrittenPreservesValid | dist/lib.cjs.js:1553-1570 | With `popForm` as written and a hide delay that is not positive, every event keeps the stack consistent and the delay unchanged. |
| DialogStack.RunAsWrittenPreservesValid | dist/lib.cjs.js:1529-1582 | With `popForm` as written and a hide delay that is not positive, any sequence of events from a consistent stack keeps it consistent. |
| DialogStack.StepAsWrittenInBounds | dist/lib.cjs.js:1529-1582 | With `popForm` as written and any hide delay, every event keeps the index below the list length. |
| DialogStack.RunAsWrittenInBounds | dist/lib.cjs.js:1483-1582 | With `popForm` as written and any hide delay, including the default 200, any run keeps the index below the list length. So `currentDialog` yields a dialog whenever the index is not negative. |
| DialogStack.PushPopRoundTrip | dist/lib.cjs.js:1529-1582 | Push, cancel, the delayed decrement if any, then the leave transition: the list and index come back to what they were, with actions enabled and nothing pending. |
| DialogStack.DoublePopAsWrittenReachesMinusTwo | dist/lib.cjs.js:1559-1566 | As written, two cancels during the hide delay of the last dialog schedule two decrements. That drives the index to -2 and leaves the stack inconsistent. |
| DialogStack.DoublePopCorrected | dist/lib.cjs.js:1553-1570 | With the guard, the second cancel is ignored and the single decrement ends at -1, consistent. |

## Left out

- Vue render functions, templates and `normalizeComponent`: presentation only.
- The host framework: `super.parse`, `super.getValidation`,
  `setConfigUsingValidation` and `validator.getMultiple`. Their code is not
  part of this model. `parseControlList` is a parameter of
  `DialogStack.PushUnparsedForm`. `SelectItems.GetItems` computes the
  configuration with `Parsers.SelectConfig`, standing in for `super.parse`.
- Date and time widgets, `formatSize`/`totalSize` and file input: they rely
  on `Date`, locale formatting and floating-point division.
- UUID generation, `document.documentElement` overflow handling and the
  dialog height: DOM and browser state.
- Promise-based loaders (the async group and the variant loader): asynchronous.
- `onSubmit`: it depends on the validation runtime (`$v`) and on object
  identity (`indexOf(dialog)`).
- `onRouteLeave`: it hands the last dialog's component ref
  (`$refs.formGroup`) to a caller-supplied callback, then runs `onCancel` on
  the last dialog. The ref and the callback are outside the model;
  `DialogStack.OnCancel` covers the cancel it triggers.
- Validation-display helpers such as `tabHasError` and `itemHasError`.
  They read the external validation runtime.
- The other parsers (switch group, description, chips, display, component,
  the `getItems` of the repeats, the `getValidation` of the region parsers).
  They are outside the schema-normalisation core.
- Numbers are integers plus NaN. Fractions, Infinity and -0 are not modelled.
  `Number()` of a string other than empty or signed decimal digits gives
  `Unmodelled`.
- Only own properties are modelled. Inherited prototype properties (`constructor`,
  `toString`, array methods) read as undefined. A `__proto__` key is an
  ordinary key.
- Object key order is not modelled. An object is a map, so spread order only
  shows in which value wins.
- Object identity and aliasing are not modelled. The source's `getItems`
  writes the filled title into the definition's own item objects. The model
  returns the filled copies and leaves the input alone.
- Strings are sequences of code points, not UTF-16 code units. This applies to
  comparison, `.length`, index keys and the spread of a string. It differs
  from JavaScript only for characters outside the Basic Multilingual Plane.
- Converting a number of 1e21 or more to a string is not formatted in
  exponent form.
- Widgets.SetDeviceProps: the default prefix is `Option<string>`, because
  every caller passes a string or nothing. A non-string default prefix is not
  modelled.
- Widgets.TickLabel: the slider value is an integer. Fractional slider values
  and non-numeric minimums that `Number()` cannot read give `Unmodelled`.
- DialogStack.PushUnparsedForm: the validator container that
  `parseControlList` fills in by mutation is modelled as the fresh `{}`.
  The parser's writes into it are not modelled.
- Named-property writes onto arrays (`arr.pattern = …`, `arr.variantField = …`,
  `arr[title] = …` with a non-index key) give `Unmodelled`. JavaScript stores
  such a property on the array and carries on. This affects
  `Parsers.IconValidation`, `Parsers.VariantConfig` and `SelectItems.FillTitle`
  when the validation, config or item is an array, and writes past an
  array's end.
- `x.hasOwnProperty(k)` is modelled as `k` being an own key of `x`. An object
  with an own key named `hasOwnProperty` shadows the method, and the source
  then throws a TypeError (or calls that value). This affects
  `Parsers.HiddenDefault`, `Parsers.FillRegions`, `Parsers.GroupRepeatDefault`,
  `Parsers.GroupRepeatVariantsDefault`, `Parsers.RangeDefaultAsWritten`,
  `Parsers.RangeDefault` and `Widgets.SetDeviceProps`.
- DialogStack.OnCancel: the cancel action is given as its result, `None`
  when `actions.cancel` is not a function. Its side effects are not modelled.
- The watcher on `currentDialogIndex` runs after a tick. It is a separate
  event, and its overflow and height handling are left out.

## Findings

| source | as written | input that shows it | evidently intended | confidence | as-written member | corrected member |
|---|---|---|---|---|---|---|
| dist/lib.cjs.js:571-572 | `RangeParser.getDefault` reads `definitions.default`, an undeclared name, so any definition with an own `default` throws a ReferenceError | `{default: [10, 20]}` | `[Number(definition.default[0]), Number(definition.default[1])]`, here `[10, 20]` | high, not executed | Parsers.RangeDefaultAsWritten (witness Parsers.RangeDefaultTypoWitness) | Parsers.RangeDefault |
| dist/lib.cjs.js:1559-1566 | `popForm` at index 0 with a hide delay schedules a decrement without recording it. A second call before the timer fires schedules another. | one open dialog, hide delay 200, `popForm` twice within 200 ms, then both timers fire: the index is -2 | the second pop is ignored and the index ends at -1 | low, not executed: it needs a second cancel or route leave during the modal's hide delay | DialogStack.PopFormAsWritten and DialogStack.OnCancel (witness DialogStack.DoublePopAsWrittenReachesMinusTwo) | DialogStack.PopForm and DialogStack.OnCancelCorrected (DialogStack.DoublePopCorrected, DialogStack.StepPreservesValid) |

=== FILE: dialog_stack.dfy ===
/** The stack of modal sub-forms kept by the DialogForms component. Repeat
    controls push a form to add or edit an item; cancelling pops it. The
    transition group around the slides calls `beforeEnter` when a slide starts
    to appear and `afterLeave` once a slide has gone, and only then is the
    popped dialog removed from the list.

    Popping the last dialog while a hide delay is configured first hides the
    modal and decrements the index only when the delay has elapsed. The model
    counts those scheduled decrements in `pendingHides`, and `HideElapsed` is
    the timer firing. */
module DialogStack {
  import opened JsValue

  /** One pushed form, with the fallbacks pushForm fills in. */
  datatype Dialog = Dialog(
    form: Value,
    validator: Value,
    name: Value,
    model: Value,
    actions: Value,
    title: Value,
    button: Value,
    cancelButton: Value,
    path: Value)

  /** `currentMethod`, which names the slide transition. */
  datatype Transition = Push | Pop

  datatype Stack = Stack(
    dialogs: seq<Dialog>,
    index: int,              // currentDialogIndex
    actionsEnabled: bool,
    transition: Transition,
    modalShow: bool,
    hideTimeout: int,        // the component property, DefaultHideTimeout unless given
    pendingHides: nat)       // decrements scheduled by popForm, not yet run

  /** The default of the `hideTimeout` property. */
  const DefaultHideTimeout := 200

  /** The component's initial data: no dialog open, actions enabled, the
      modal hidden and no decrement scheduled. */
  function Initial(hideTimeout: int): (r: Stack)
    ensures Valid(r) && Tight(r)
    ensures CurrentDialog(r) == None
    ensures r.actionsEnabled && !r.modalShow && r.pendingHides == 0
    ensures r.hideTimeout == hideTimeout
  {
    Stack([], -1, true, Push, false, hideTimeout, 0)
  }

  /** The stack is consistent: the current index points into the list or is
      -1, and once every scheduled decrement has run it is still at least -1. */
  ghost predicate Valid(s: Stack) {
    && s.index < |s.dialogs|
    && s.index - s.pendingHides >= -1
    && (s.pendingHides > 0 ==> s.hideTimeout > 0)
  }

  /** Every dialog below the current one is still open and none above it. */
  ghost predicate Tight(s: Stack) {
    |s.dialogs| == s.index + 1
  }

  /** `currentDialog`: null at a negative index or past the end. */
  function CurrentDialog(s: Stack): (r: Option<Dialog>)
    ensures s.index < 0 ==> r == None
    ensures 0 <= s.index < |s.dialogs| ==> r == Some(s.dialogs[s.index])
  {
    if s.index < 0 || s.index >= |s.dialogs| then None else Some(s.dialogs[s.index])
  }

  /** The dialog record pushForm builds from its options. */
  function NewDialog(options: Value): (r: Result<Dialog>)
    ensures r.Throw? <==> IsNullish(options)
    ensures r.Ok? ==> Truthy(r.value.form) && Truthy(r.value.validator) && Truthy(r.value.model)
                      && Truthy(r.value.actions) && Truthy(r.value.path)
    ensures r.Ok? && Truthy(Prop(options, "items")) ==> r.value.form == Prop(options, "items")
    ensures r.Ok? && !Truthy(Prop(options, "items")) ==> r.value.form == Arr([])
    ensures r.Ok? && Truthy(Prop(options, "validator")) ==> r.value.validator == Prop(options, "validator")
    ensures r.Ok? && !Truthy(Prop(options, "validator")) ==> r.value.validator == EmptyObject
    ensures r.Ok? && Truthy(Prop(options, "name")) ==> r.value.name == Prop(options, "name")
    ensures r.Ok? && !Truthy(Prop(options, "name")) ==> r.value.name == Undefined
    ensures r.Ok? && Truthy(Prop(options, "model")) ==> r.value.model == Prop(options, "model")
    ensures r.Ok? && !Truthy(Prop(options, "model")) ==> r.value.model == EmptyObject
    ensures r.Ok? && Truthy(Prop(options, "actions")) ==> r.value.actions == Prop(options, "actions")
    ensures r.Ok? && !Truthy(Prop(options, "actions")) ==> r.value.actions == EmptyObject
    ensures r.Ok? && Truthy(Prop(options, "title")) ==> r.value.title == Prop(options, "title")
    ensures r.Ok? && !Truthy(Prop(options, "title")) ==> r.value.title == Null
    ensures r.Ok? && Truthy(Prop(options, "button")) ==> r.value.button == Prop(options, "button")
    ensures r.Ok? && !Truthy(Prop(options, "button")) ==> r.value.button == Null
    ensures r.Ok? && Truthy(Prop(options, "cancelButton")) ==> r.value.cancelButton == Prop(options, "cancelButton")
    ensures r.Ok? && !Truthy(Prop(options, "cancelButton")) ==> r.value.cancelButton == Null
    ensures r.Ok? && Truthy(Prop(options, "path")) ==> r.value.path == Prop(options, "path")
    ensures r.Ok? && !Truthy(Prop(options, "path")) ==> r.value.path == Arr([])
  {
    if IsNullish(options) then Throw(TypeError)
    else
      Ok(Dialog(
        Or(Prop(options, "items"), Arr([])),
        Or(Prop(options, "validator"), EmptyObject),
        Or(Prop(options, "name"), Undefined),
        Or(Prop(options, "model"), EmptyObject),
        Or(Prop(options, "actions"), EmptyObject),
        Or(Prop(options, "title"), Null),
        Or(Prop(options, "button"), Null),
        Or(Prop(options, "cancelButton"), Null),
        Or(Prop(options, "path"), Arr([]))))
  }

  /** pushForm: ignored while actions are disabled; otherwise one dialog is
      appended and becomes current. */
  function PushForm(s: Stack, options: Value): (r: Result<Stack>)
    ensures !s.actionsEnabled ==> r == Ok(s)
    ensures s.actionsEnabled ==> (r.Throw? <==> IsNullish(options))
    ensures s.actionsEnabled && r.Ok? ==>
              && r.value.dialogs == s.dialogs + [NewDialog(options).value]
              && r.value.index == s.index + 1
              && r.value.transition == Push
              && r.value.actionsEnabled && r.value.modalShow == s.modalShow
              && r.value.pendingHides == s.pendingHides
  {
    if !s.actionsEnabled then Ok(s)
    else
      var d :- NewDialog(options);
      Ok(s.(dialogs := s.dialogs + [d], transition := Push, index := s.index + 1))
  }

  /** popForm as written. At index 0 with a hide delay it hides the modal and
      schedules the decrement; it does not notice a decrement that is already
      scheduled. */
  function PopFormAsWritten(s: Stack): (r: Stack)
    ensures s.index < 0 ==> r == s
    ensures r.dialogs == s.dialogs && r.actionsEnabled == s.actionsEnabled
    ensures s.index == 0 && s.hideTimeout > 0 ==>
              r.index == 0 && !r.modalShow && r.pendingHides == s.pendingHides + 1
    ensures s.index >= 0 && !(s.index == 0 && s.hideTimeout > 0) ==>
              r == s.(transition := Pop, index := s.index - 1)
  {
    if s.index < 0 then s
    else if s.index == 0 && s.hideTimeout > 0 then s.(modalShow := false, pendingHides := s.pendingHides + 1)
    else s.(transition := Pop, index := s.index - 1)
  }

  /** popForm with the missing guard: a pop is ignored once every open dialog
      is already scheduled to close. */
  function PopForm(s: Stack): (r: Stack)
    ensures s.index - s.pendingHides < 0 ==> r == s
    ensures r.dialogs == s.dialogs && r.actionsEnabled == s.actionsEnabled
    ensures r.index - r.pendingHides == (if s.index - s.pendingHides < 0 then s.index - s.pendingHides
                                         else s.index - s.pendingHides - 1)
    ensures s.index - s.pendingHides >= 0 && !(s.index == 0 && s.hideTimeout > 0) ==>
              r.index == s.index - 1 && r.transition == Pop && r.pendingHides == s.pendingHides
  {
    if s.index - s.pendingHides < 0 then s
    else PopFormAsWritten(s)
  }

  /** The delayed part of popForm running once the hide delay has elapsed. */
  function HideElapsed(s: Stack): (r: Stack)
    requires s.pendingHides > 0
    ensures r.index == s.index - 1 && r.pendingHides == s.pendingHides - 1
    ensures r.dialogs == s.dialogs && r.transition == Pop
    ensures r.actionsEnabled == s.actionsEnabled && r.modalShow == s.modalShow
    ensures r.hideTimeout == s.hideTimeout
  {
    s.(transition := Pop, index := s.index - 1, pendingHides := s.pendingHides - 1)
  }

  /** beforeEnter: actions are disabled while a slide comes in. */
  function BeforeEnter(s: Stack): (r: Stack)
    ensures !r.actionsEnabled
    ensures r.dialogs == s.dialogs && r.index == s.index
  {
    s.(actionsEnabled := false)
  }

  /** afterLeave: a slide has gone; the last dialog is dropped when it lies
      above the current one, and actions are enabled again. */
  function AfterLeave(s: Stack): (r: Stack)
    ensures r.actionsEnabled && r.index == s.index
    ensures |s.dialogs| > 0 && |s.dialogs| - 1 > s.index ==> r.dialogs == s.dialogs[..|s.dialogs| - 1]
    ensures |s.dialogs| == 0 || |s.dialogs| - 1 <= s.index ==> r.dialogs == s.dialogs
  {
    var last := |s.dialogs| - 1;
    if last > s.index then s.(dialogs := PopLast(s.dialogs), actionsEnabled := true)
    else s.(actionsEnabled := true)
  }

  /** `Array.prototype.pop` for its effect: the last element goes, and an
      empty list stays empty. */
  function PopLast<T>(xs: seq<T>): (r: seq<T>)
    ensures |xs| > 0 ==> |r| == |xs| - 1 && forall i :: 0 <= i < |r| ==> r[i] == xs[i]
    ensures |xs| == 0 ==> r == []
  {
    if |xs| == 0 then [] else xs[..|xs| - 1]
  }

  /** clearForms: every dialog is dropped. */
  function ClearForms(s: Stack): (r: Stack)
    ensures r.dialogs == [] && r.index == s.index && r.actionsEnabled == s.actionsEnabled
  {
    s.(dialogs := [])
  }

  /** The watcher on currentDialogIndex: the modal is shown exactly when the
      index is not negative, and the list is cleared when it is. */
  function IndexSettled(s: Stack): (r: Stack)
    ensures r.modalShow <==> s.index >= 0
    ensures s.index >= 0 ==> r.dialogs == s.dialogs
    ensures s.index < 0 ==> r.dialogs == []
    ensures r.index == s.index && r.actionsEnabled == s.actionsEnabled
    ensures r.pendingHides == s.pendingHides && r.transition == s.transition
    ensures r.hideTimeout == s.hideTimeout
  {
    var shown := s.index >= 0;
    var r := s.(modalShow := shown);
    if shown then r else ClearForms(r)
  }

  /** The item list `pushUnparsedForm` hands to the control-list parser. */
  function UnparsedItems(form: Value): Value {
    Or(Field(Spread(form), "items"), Arr([]))
  }

  /** pushUnparsedForm: a shallow copy of the form description gets a fresh
      validator container and its items run through the control-list parser
      (a parameter here, which may throw); a given model replaces the form's
      own. The parser runs before pushForm looks at `actionsEnabled`, so its
      exception escapes even while actions are disabled. The copy is always
      an object, so the push itself never throws. */
  function PushUnparsedForm(s: Stack, form: Value, model: Value, parseControlList: Value -> Result<Value>)
    : (r: Result<Stack>)
    ensures r.Throw? <==> parseControlList(UnparsedItems(form)).Throw?
    ensures r.Throw? ==> r.fault == parseControlList(UnparsedItems(form)).fault
    ensures !s.actionsEnabled && r.Ok? ==> r == Ok(s)
    ensures s.actionsEnabled && r.Ok? ==>
              && |r.value.dialogs| == |s.dialogs| + 1
              && r.value.dialogs[..|s.dialogs|] == s.dialogs
              && r.value.index == s.index + 1
    ensures s.actionsEnabled && r.Ok? && !model.Undefined? ==>
              r.value.dialogs[|s.dialogs|].model == Or(model, EmptyObject)
    ensures s.actionsEnabled && r.Ok? && model.Undefined? ==>
              r.value.dialogs[|s.dialogs|].model == Or(Field(Spread(form), "model"), EmptyObject)
    ensures s.actionsEnabled && r.Ok? && Truthy(parseControlList(UnparsedItems(form)).value) ==>
              r.value.dialogs[|s.dialogs|].form == parseControlList(UnparsedItems(form)).value
  {
    var copy := Spread(form)["validator" := EmptyObject];
    var items :- parseControlList(Or(Field(copy, "items"), Arr([])));
    var copy := copy["items" := items];
    var copy := if model.Undefined? then copy else copy["model" := model];
    PushForm(s, Obj(copy))
  }

  /** What the cancel button reports and the stack it leaves. */
  datatype Handled = Handled(stack: Stack, accepted: bool)

  /** onCancel: `cancelVerdict` is the result of the dialog's cancel action
      when it has one (`None` when `actions.cancel` is not a function). Only a
      result that is exactly `false` keeps the dialog open; otherwise popForm
      runs as written, scheduling another decrement even when one is pending. */
  function OnCancel(s: Stack, cancelVerdict: Option<Value>): (r: Handled)
    ensures r.accepted <==> cancelVerdict != Some(Bool(false))
    ensures !r.accepted ==> r.stack == s
    ensures r.accepted ==> r.stack == PopFormAsWritten(s)
    ensures r.accepted && s.index >= 0 ==>
              r.stack.index - r.stack.pendingHides == s.index - s.pendingHides - 1
    ensures r.stack.dialogs == s.dialogs
  {
    if cancelVerdict == Some(Bool(false)) then Handled(s, false)
    else Handled(PopFormAsWritten(s), true)
  }

  /** onCancel with the corrected popForm: an accepted cancel is ignored once
      every open dialog is already scheduled to close. */
  function OnCancelCorrected(s: Stack, cancelVerdict: Option<Value>): (r: Handled)
    ensures r.accepted <==> cancelVerdict != Some(Bool(false))
    ensures !r.accepted ==> r.stack == s
    ensures r.accepted && s.index - s.pendingHides < 0 ==> r.stack == s
    ensures r.accepted && s.index - s.pendingHides >= 0 ==>
              r.stack.index - r.stack.pendingHides == s.index - s.pendingHides - 1
    ensures r.stack.dialogs == s.dialogs
  {
    if cancelVerdict == Some(Bool(false)) then Handled(s, false)
    else Handled(PopForm(s), true)
  }

  /** The two cancels differ only while a decrement is pending: with nothing
      scheduled they leave the same stack. */
  lemma OnCancelAgreesWhenNothingPending(s: Stack, cancelVerdict: Option<Value>)
    requires s.pendingHides == 0
    ensures OnCancel(s, cancelVerdict) == OnCancelCorrected(s, cancelVerdict)
  {
  }

  /** The guard only matters while a decrement is pending: with nothing
      scheduled, the corrected popForm is popForm as written. */
  lemma PopFormAgreesWhenNothingPending(s: Stack)
    requires s.pendingHides == 0
    ensures PopForm(s) == PopFormAsWritten(s)
  {
  }

  /** The events the component reacts to. */
  datatype Event =
    | PushEvent(options: Value)
    | PopEvent
    | HideTimerEvent
    | BeforeEnterEvent
    | AfterLeaveEvent
    | IndexWatchEvent

  /** One event with the corrected popForm; a timer only fires when one is
      scheduled. */
  function Step(s: Stack, e: Event): Result<Stack> {
    match e
    case PushEvent(options) => PushForm(s, options)
    case PopEvent => Ok(PopForm(s))
    case HideTimerEvent => if s.pendingHides > 0 then Ok(HideElapsed(s)) else Ok(s)
    case BeforeEnterEvent => Ok(BeforeEnter(s))
    case AfterLeaveEvent => Ok(AfterLeave(s))
    case IndexWatchEvent => Ok(IndexSettled(s))
  }

  /** Every event keeps the stack consistent. */
  lemma StepPreservesValid(s: Stack, e: Event)
    requires Valid(s)
    ensures Step(s, e).Ok? ==> Valid(Step(s, e).value)
  {
  }

  /** One event with popForm as written. */
  function StepAsWritten(s: Stack, e: Event): Result<Stack> {
    match e
    case PopEvent => Ok(PopFormAsWritten(s))
    case _ => Step(s, e)
  }

  /** Without a hide delay popForm is synchronous, no decrement is ever
      scheduled, and popForm as written keeps the stack consistent. */
  lemma StepAsWrittenPreservesValid(s: Stack, e: Event)
    requires Valid(s) && s.hideTimeout <= 0
    ensures StepAsWritten(s, e).Ok? ==>
              && Valid(StepAsWritten(s, e).value)
              && StepAsWritten(s, e).value.hideTimeout == s.hideTimeout
  {
  }

  /** The current index never points past the list, so `currentDialog`
      reads a dialog whenever the index is not negative. */
  ghost predicate InBounds(s: Stack) {
    s.index < |s.dialogs|
  }

  /** Whatever the hide delay, every event of the component as written keeps
      the index inside the list. */
  lemma StepAsWrittenInBounds(s: Stack, e: Event)
    requires InBounds(s)
    ensures StepAsWritten(s, e).Ok? ==> InBounds(StepAsWritten(s, e).value)
  {
  }

  /** A sequence of events with popForm as written. */
  function RunAsWritten(s: Stack, es: seq<Event>): Result<Stack>
    decreases |es|
  {
    if |es| == 0 then Ok(s)
    else
      var s' :- StepAsWritten(s, es[0]);
      RunAsWritten(s', es[1..])
  }

  /** With no hide delay, any run of the component as written stays consistent. */
  lemma {:induction false} RunAsWrittenPreservesValid(s: Stack, es: seq<Event>)
    requires Valid(s) && s.hideTimeout <= 0
    ensures RunAsWritten(s, es).Ok? ==> Valid(RunAsWritten(s, es).value)
    decreases |es|
  {
    if |es| > 0 {
      StepAsWrittenPreservesValid(s, es[0]);
      if StepAsWritten(s, es[0]).Ok? {
        RunAsWrittenPreservesValid(StepAsWritten(s, es[0]).value, es[1..]);
      }
    }
  }

  /** Whatever the hide delay, including the default one, any run of the
      component as written keeps the index inside the list. */
  lemma {:induction false} RunAsWrittenInBounds(s: Stack, es: seq<Event>)
    requires InBounds(s)
    ensures RunAsWritten(s, es).Ok? ==> InBounds(RunAsWritten(s, es).value)
    ensures RunAsWritten(s, es).Ok? && RunAsWritten(s, es).value.index >= 0 ==>
              CurrentDialog(RunAsWritten(s, es).value).Some?
    decreases |es|
  {
    if |es| > 0 {
      StepAsWrittenInBounds(s, es[0]);
      if StepAsWritten(s, es[0]).Ok? {
        RunAsWrittenInBounds(StepAsWritten(s, es[0]).value, es[1..]);
      }
    }
  }

  /** A sequence of events with the corrected popForm. */
  function Run(s: Stack, es: seq<Event>): Result<Stack>
    decreases |es|
  {
    if |es| == 0 then Ok(s)
    else
      var s' :- Step(s, es[0]);
      Run(s', es[1..])
  }

  /** The stack stays consistent over any run that starts from a consistent one. */
  lemma {:induction false} RunPreservesValid(s: Stack, es: seq<Event>)
    requires Valid(s)
    ensures Run(s, es).Ok? ==> Valid(Run(s, es).value)
    decreases |es|
  {
    if |es| > 0 {
      StepPreservesValid(s, es[0]);
      if Step(s, es[0]).Ok? {
        RunPreservesValid(Step(s, es[0]).value, es[1..]);
      }
    }
  }

  /** Pushing a form and cancelling it brings the stack back: after the pop
      (and the delayed decrement when the last dialog was closed) and the
      leave transition, the list and index are those before the push. */
  lemma PushPopRoundTrip(s: Stack, options: Value)
    requires Valid(s) && Tight(s) && s.actionsEnabled && s.pendingHides == 0
    requires !IsNullish(options)
    ensures var pushed := PushForm(s, options).value;
            var popped := PopForm(pushed);
            var settled := if popped.pendingHides > 0 then HideElapsed(popped) else popped;
            var left := AfterLeave(settled);
            && left.dialogs == s.dialogs
            && left.index == s.index
            && left.actionsEnabled
            && left.pendingHides == 0
  {
  }

  // ---------------------------------------------------------------------------
  // Finding: two pops during the hide delay

  /** One open dialog, shown, with the default hide delay. */
  function OneDialogOpen(d: Dialog): Stack {
    Stack([d], 0, true, Push, true, DefaultHideTimeout, 0)
  }

  /** As written: a second cancel during the hide delay schedules a second
      decrement, and once both timers fire the index is -2, below the -1 that
      means "no dialog"; the stack is no longer consistent. */
  lemma DoublePopAsWrittenReachesMinusTwo(d: Dialog)
    ensures var s := PopFormAsWritten(PopFormAsWritten(OneDialogOpen(d)));
            && s.pendingHides == 2
            && HideElapsed(HideElapsed(s)).index == -2
            && Valid(OneDialogOpen(d))
            && !Valid(s)
  {
  }

  /** Corrected: the second cancel is ignored and the single timer brings the
      index to -1. */
  lemma DoublePopCorrected(d: Dialog)
    ensures var s := PopForm(PopForm(OneDialogOpen(d)));
            && s.pendingHides == 1
            && HideElapsed(s).index == -1
            && Valid(HideElapsed(s))
  {
  }
}

=== FILE: js_value.dfy ===
/** JavaScript values and the pieces of JavaScript semantics that the control
    parsers and widgets rely on: truthiness, `== null`, `typeof`, `||`, own
    property reads and strict-mode property writes, object spread, conversion to
    string (property keys, concatenation), conversion to number and `<`.

    Numbers are modelled as integers plus NaN. The whole library runs in strict
    mode, so writing a property onto a primitive raises a TypeError. */
module JsValue {

  datatype Option<+T> = None | Some(value: T)

  datatype Value =
    | Undefined
    | Null
    | Bool(b: bool)
    | Num(n: int)
    | NaN
    | Str(s: string)
    | Arr(elems: seq<Value>)
    | Obj(fields: map<string, Value>)

  /** Why an evaluation stopped. `Unmodelled` marks a JavaScript outcome the
      model cannot represent (for instance a named property written onto an
      array), so that the model never claims a wrong value. */
  datatype Fault = TypeError | ReferenceError | Unmodelled

  /** The outcome of evaluating JavaScript code that may throw. */
  datatype Result<+T> = Ok(value: T) | Throw(fault: Fault) {
    predicate IsFailure() {
      Throw?
    }

    function PropagateFailure<U>(): Result<U>
      requires Throw?
    {
      Throw(fault)
    }

    function Extract(): T
      requires Ok?
    {
      value
    }
  }

  /** `!!v` */
  predicate Truthy(v: Value) {
    match v
    case Undefined => false
    case Null => false
    case Bool(b) => b
    case Num(n) => n != 0
    case NaN => false
    case Str(s) => s != ""
    case Arr(_) => true
    case Obj(_) => true
  }

  /** `v == null` (loose equality) */
  predicate IsNullish(v: Value) {
    v.Undefined? || v.Null?
  }

  /** No element is null or undefined. */
  predicate NoNullish(xs: seq<Value>) {
    forall i :: 0 <= i < |xs| ==> !IsNullish(xs[i])
  }

  /** `typeof v === 'object'`, which holds for null as well */
  predicate IsObjectType(v: Value) {
    v.Null? || v.Arr? || v.Obj?
  }

  /** `a || b` */
  function Or(a: Value, b: Value): Value {
    if Truthy(a) then a else b
  }

  /** `d.key` on a plain object held as a map */
  function Field(d: map<string, Value>, key: string): Value {
    if key in d then d[key] else Undefined
  }

  const EmptyObject: Value := Obj(map[])

  // ---------------------------------------------------------------------------
  // Decimal digits

  predicate IsDigit(c: char) {
    '0' <= c <= '9'
  }

  predicate IsDigits(s: string) {
    |s| > 0 && forall i :: 0 <= i < |s| ==> IsDigit(s[i])
  }

  function DigitChar(d: nat): (c: char)
    requires d < 10
    ensures IsDigit(c)
  {
    ('0' as int + d) as char
  }

  function DigitValue(c: char): nat
    requires IsDigit(c)
  {
    c as int - '0' as int
  }

  /** The value of a string of decimal digits, leading zeros allowed. */
  function ParseDigits(s: string): nat
    requires forall i :: 0 <= i < |s| ==> IsDigit(s[i])
  {
    if |s| == 0 then 0 else ParseDigits(s[..|s| - 1]) * 10 + DigitValue(s[|s| - 1])
  }

  /** The canonical decimal form of a natural number, as `String(n)` prints it. */
  function NatToString(n: nat): (s: string)
    ensures IsDigits(s)
    ensures s[0] == '0' ==> s == "0"
  {
    if n < 10 then [DigitChar(n)] else NatToString(n / 10) + [DigitChar(n % 10)]
  }

  function IntToString(i: int): string {
    if i < 0 then "-" + NatToString(-i) else NatToString(i)
  }

  /** A canonical array index: digits without a leading zero. */
  predicate IsCanonicalIndex(s: string) {
    IsDigits(s) && (s[0] == '0' ==> |s| == 1)
  }

  /** The array index a property key denotes, if any. */
  function ParseIndex(s: string): Option<nat> {
    if IsCanonicalIndex(s) then Some(ParseDigits(s)) else None
  }

  lemma {:induction false} ParseDigitsOfNatToString(n: nat)
    ensures ParseDigits(NatToString(n)) == n
    decreases n
  {
    var s := NatToString(n);
    if n >= 10 {
      var p := NatToString(n / 10);
      assert s == p + [DigitChar(n % 10)];
      assert s[..|s| - 1] == p;
      ParseDigitsOfNatToString(n / 10);
    }
  }

  /** Printing an index and reading it back gives the index: every array
      position has exactly one property key. */
  lemma NatToStringRoundTrip(n: nat)
    ensures ParseIndex(NatToString(n)) == Some(n)
  {
    ParseDigitsOfNatToString(n);
  }

  // ---------------------------------------------------------------------------
  // Conversion to string: property keys and `+` with a string

  /** `String(v)`. Objects print as "[object Object]"; arrays print as their
      elements joined by commas, with null and undefined printed empty. */
  function ToString(v: Value): string
    decreases v, 1, 0
  {
    match v
    case Undefined => "undefined"
    case Null => "null"
    case Bool(b) => if b then "true" else "false"
    case Num(n) => IntToString(n)
    case NaN => "NaN"
    case Str(s) => s
    case Arr(xs) => JoinFrom(xs, 0)
    case Obj(_) => "[object Object]"
  }

  function JoinFrom(xs: seq<Value>, i: nat): string
    requires i <= |xs|
    decreases Arr(xs), 0, |xs| - i
  {
    if i == |xs| then ""
    else
      (if i > 0 then "," else "")
      + (if IsNullish(xs[i]) then "" else ToString(xs[i]))
      + JoinFrom(xs, i + 1)
  }

  // ---------------------------------------------------------------------------
  // Property access

  /** `v[key]` on a value that is not null or undefined. Only own properties
      are modelled: array and string elements, their `length`, and the entries
      of an object. */
  function Prop(v: Value, key: string): Value
    requires !IsNullish(v)
  {
    match v
    case Obj(m) => Field(m, key)
    case Arr(xs) =>
      if key == "length" then Num(|xs|)
      else (match ParseIndex(key)
            case Some(i) => if i < |xs| then xs[i] else Undefined
            case None => Undefined)
    case Str(s) =>
      if key == "length" then Num(|s|)
      else (match ParseIndex(key)
            case Some(i) => if i < |s| then Str([s[i]]) else Undefined
            case None => Undefined)
    case _ => Undefined
  }

  /** `v[key]`, which throws on null and undefined. */
  function GetProp(v: Value, key: string): (r: Result<Value>)
    ensures r.Throw? <==> IsNullish(v)
    ensures r.Throw? ==> r.fault == TypeError
  {
    if IsNullish(v) then Throw(TypeError) else Ok(Prop(v, key))
  }

  /** `v[key] = x` in strict mode. Writing onto a primitive throws; writing a
      key onto an array other than one of its present indices is outside the
      model. */
  function SetProp(v: Value, key: string, x: Value): Result<Value> {
    match v
    case Obj(m) => Ok(Obj(m[key := x]))
    case Arr(xs) =>
      (match ParseIndex(key)
       case Some(i) => if i < |xs| then Ok(Arr(xs[i := x])) else Throw(Unmodelled)
       case None => Throw(Unmodelled))
    case _ => Throw(TypeError)
  }

  /** Reading a property just written gives the written value back. */
  lemma GetAfterSet(v: Value, key: string, x: Value)
    requires SetProp(v, key, x).Ok?
    ensures !IsNullish(SetProp(v, key, x).value)
    ensures Prop(SetProp(v, key, x).value, key) == x
  {
  }

  /** The own enumerable properties `{...v}` copies into a new object. */
  function Spread(v: Value): map<string, Value> {
    match v
    case Obj(m) => m
    case Arr(xs) => IndexMap(xs)
    case Str(s) => IndexMap(seq(|s|, i requires 0 <= i < |s| => Str([s[i]])))
    case _ => map[]
  }

  function IndexMap(xs: seq<Value>): map<string, Value> {
    if |xs| == 0 then map[]
    else IndexMap(xs[..|xs| - 1])[NatToString(|xs| - 1) := xs[|xs| - 1]]
  }

  // ---------------------------------------------------------------------------
  // Conversion to number and `<`

  /** `ToPrimitive(v)` for the hint "number": arrays and plain objects turn into
      their string form. */
  function ToPrimitive(v: Value): Value {
    if v.Arr? || v.Obj? then Str(ToString(v)) else v
  }

  /** `Number(s)` for the strings the model can read: the empty string and an
      optionally signed run of decimal digits. Other strings (fractions,
      exponents, hexadecimal, surrounding white space, words) are outside the
      model. */
  function StringToNumber(s: string): Result<Value> {
    if s == "" then Ok(Num(0))
    else if IsDigits(s) then Ok(Num(ParseDigits(s)))
    else if s[0] == '-' && IsDigits(s[1..]) then Ok(Num(0 - ParseDigits(s[1..]) as int))
    else if s[0] == '+' && IsDigits(s[1..]) then Ok(Num(ParseDigits(s[1..])))
    else Throw(Unmodelled)
  }

  /** `Number(v)`: always a `Num` or `NaN` when it succeeds. */
  function ToNumeric(v: Value): (r: Result<Value>)
    ensures r.Ok? ==> r.value.Num? || r.value.NaN?
    ensures r.Throw? ==> r.fault == Unmodelled
  {
    match v
    case Undefined => Ok(NaN)
    case Null => Ok(Num(0))
    case Bool(b) => Ok(Num(if b then 1 else 0))
    case Num(_) => Ok(v)
    case NaN => Ok(NaN)
    case Str(s) => StringToNumber(s)
    case Arr(_) => StringToNumber(ToString(v))
    case Obj(_) => Ok(NaN)
  }

  /** Lexicographic order on strings, a proper prefix coming first. */
  predicate StrLess(a: string, b: string)
    decreases |a|
  {
    if |a| == 0 then |b| > 0
    else if |b| == 0 then false
    else if a[0] != b[0] then a[0] < b[0]
    else StrLess(a[1..], b[1..])
  }

  /** `a < b`: two strings compare as strings, anything else as numbers, and
      a comparison with NaN is false. */
  function LessThan(a: Value, b: Value): Result<bool> {
    var pa := ToPrimitive(a);
    var pb := ToPrimitive(b);
    if pa.Str? && pb.Str? then Ok(StrLess(pa.s, pb.s))
    else
      var x :- ToNumeric(pa);
      var y :- ToNumeric(pb);
      Ok(x.Num? && y.Num? && x.n < y.n)
  }
}

=== FILE: parsers.dfy ===
/** Default-value synthesis of the control parsers, plus the two pieces of
    parser logic that rewrite a definition before the host framework sees it:
    the select parser's configuration defaults and the icon parser's pattern
    injection.

    A definition is the raw JSON object of one control in the form schema. The
    host framework's `super.parse`, `getValidation` and
    `setConfigUsingValidation` are not part of this model. */
module Parsers {
  import opened JsValue

  /** A raw control definition: a plain JSON object. */
  type Definition = map<string, Value>

  /** `definition.default` */
  function Default(d: Definition): Value {
    Field(d, "default")
  }

  /** `definition.nullable`, read for truthiness */
  predicate Nullable(d: Definition) {
    Truthy(Field(d, "nullable"))
  }

  /** `definition.nullable ? null : undefined`, the end of every fallback chain */
  function Fallback(d: Definition): Value {
    if Nullable(d) then Null else Undefined
  }

  /** `definition.config && definition.config.multiple` */
  predicate Multiple(d: Definition) {
    var config := Field(d, "config");
    Truthy(config) && Truthy(Prop(config, "multiple"))
  }

  /** `{...definition.default}` when `typeof definition.default === 'object'`
      (null included, which spreads to nothing), and `{}` otherwise. */
  function DeclaredObject(d: Definition): map<string, Value> {
    if IsObjectType(Default(d)) then Spread(Default(d)) else map[]
  }

  // ---------------------------------------------------------------------------
  // Hidden

  /** HiddenParser.getDefault: an own `default` key wins whatever its value;
      without one the result is null for a nullable control, else undefined. */
  function HiddenDefault(d: Definition): (r: Value)
    ensures "default" in d ==> r == d["default"]
    ensures "default" !in d ==> (r == Null <==> Nullable(d))
    ensures "default" !in d ==> (r == Undefined <==> !Nullable(d))
  {
    if "default" in d then d["default"] else Fallback(d)
  }

  // ---------------------------------------------------------------------------
  // Select and combobox

  /** The scalar-or-array default shared by the selection parsers. */
  function SelectionDefault(d: Definition): Value {
    if Multiple(d) then
      if Default(d).Arr? then Default(d) else Arr([])
    else if IsNullish(Default(d)) then Fallback(d)
    else Default(d)
  }

  /** SelectParser.getDefault: a multiple select always gets an array (the
      declared one if it is an array, else `[]`); a single select keeps a
      non-null default and otherwise falls back to null or undefined. */
  function SelectDefault(d: Definition): (r: Value)
    ensures Multiple(d) ==> r.Arr?
    ensures Multiple(d) ==> (r == Default(d) <==> Default(d).Arr?)
    ensures Multiple(d) && !Default(d).Arr? ==> r == Arr([])
    ensures !Multiple(d) ==> (IsNullish(r) <==> IsNullish(Default(d)))
    ensures !Multiple(d) && !IsNullish(Default(d)) ==> r == Default(d)
    ensures !Multiple(d) && IsNullish(Default(d)) ==> (r == Null <==> Nullable(d))
  {
    SelectionDefault(d)
  }

  /** ComboboxParser.getDefault: the same rules as the select parser. */
  function ComboboxDefault(d: Definition): (r: Value)
    ensures Multiple(d) ==> r.Arr?
    ensures Multiple(d) ==> (r == Default(d) <==> Default(d).Arr?)
    ensures Multiple(d) && !Default(d).Arr? ==> r == Arr([])
    ensures !Multiple(d) ==> (IsNullish(r) <==> IsNullish(Default(d)))
    ensures !Multiple(d) && !IsNullish(Default(d)) ==> r == Default(d)
    ensures !Multiple(d) && IsNullish(Default(d)) ==> (r == Null <==> Nullable(d))
  {
    SelectionDefault(d)
  }

  /** The hidden parser tests for an own `default` key where the selection
      parsers test `default == null`: the two disagree on a single-valued
      control exactly when a null or undefined default is declared and it is
      not what the fallback chain would give. */
  lemma HiddenAndSelectDisagreeOnlyOnDeclaredNull(d: Definition)
    requires !Multiple(d)
    ensures HiddenDefault(d) != SelectDefault(d)
        <==> "default" in d && IsNullish(d["default"]) && d["default"] != Fallback(d)
  {
  }

  /** The configuration SelectParser.getConfig builds: fixed property names,
      overridden by whatever `definition.config` spreads, and `group` taken
      from the parser instance. */
  const SelectConfigDefaults: map<string, Value> :=
    map[
      "titleProp" := Str("title"),
      "groupTitleProp" := Str("title"),
      "valueProp" := Str("value"),
      "iconProp" := Str("icon"),
      "descriptionProp" := Str("description"),
      "itemsProp" := Str("items"),
      "multiple" := Bool(false)
    ]

  function SelectConfig(d: Definition, group: Value): (c: map<string, Value>)
    ensures c.Keys == SelectConfigDefaults.Keys + Spread(Field(d, "config")).Keys + {"group"}
    ensures c["group"] == group
    ensures forall k :: k in Spread(Field(d, "config")) && k != "group"
                     ==> c[k] == Spread(Field(d, "config"))[k]
    ensures forall k :: k in SelectConfigDefaults && k !in Spread(Field(d, "config")) && k != "group"
                     ==> c[k] == SelectConfigDefaults[k]
  {
    (SelectConfigDefaults + Spread(Field(d, "config")))["group" := group]
  }

  lemma {:induction false} IndexMapKeysAreDigits(xs: seq<Value>)
    ensures forall k :: k in IndexMap(xs) ==> IsDigits(k)
    decreases |xs|
  {
    if |xs| > 0 {
      IndexMapKeysAreDigits(xs[..|xs| - 1]);
    }
  }

  /** `parse` chooses the validation keys from the built configuration's
      `multiple`, while `getDefault` reads `definition.config.multiple`; the
      two readings agree for every definition. */
  lemma SelectConfigMultipleAgrees(d: Definition, group: Value)
    ensures Truthy(SelectConfig(d, group)["multiple"]) <==> Multiple(d)
  {
    var config := Field(d, "config");
    match config
    case Arr(xs) =>
      IndexMapKeysAreDigits(xs);
      assert !IsDigits("multiple") by { assert !IsDigit("multiple"[0]); }
    case Str(s) =>
      IndexMapKeysAreDigits(seq(|s|, i requires 0 <= i < |s| => Str([s[i]])));
      assert !IsDigits("multiple") by { assert !IsDigit("multiple"[0]); }
    case _ =>
  }

  // ---------------------------------------------------------------------------
  // Tabs

  /** The property keys the named tabs of a tabs control produce. */
  function TabKeys(items: seq<Value>): set<string>
    requires NoNullish(items)
  {
    set i | 0 <= i < |items| && Truthy(Prop(items[i], "name")) :: ToString(Prop(items[i], "name"))
  }

  /** The loop of TabsParser.getDefault over `definition.items`. */
  function TabsFold(items: seq<Value>): (r: Result<map<string, Value>>)
    ensures r.Ok? <==> NoNullish(items)
    ensures r.Throw? ==> r.fault == TypeError
    ensures r.Ok? ==> r.value.Keys == TabKeys(items)
    ensures r.Ok? ==> forall k :: k in r.value ==> r.value[k] == EmptyObject
    decreases |items|
  {
    if |items| == 0 then Ok(map[])
    else
      var acc :- TabsFold(items[..|items| - 1]);
      var name :- GetProp(items[|items| - 1], "name");
      assert NoNullish(items) by {
        assert NoNullish(items[..|items| - 1]);
        assert forall i :: 0 <= i < |items| - 1 ==> items[i] == items[..|items| - 1][i];
      }
      assert TabKeys(items) == TabKeys(items[..|items| - 1])
                               + (if Truthy(name) then {ToString(name)} else {}) by {
        var p := items[..|items| - 1];
        assert forall i :: 0 <= i < |p| ==> p[i] == items[i];
      }
      if Truthy(name) then Ok(acc[ToString(name) := EmptyObject]) else Ok(acc)
  }

  /** TabsParser.getDefault: one empty object per tab with a truthy name, and
      `{}` when `items` is not an array. A null or undefined tab throws. */
  function TabsDefault(d: Definition): (r: Result<Value>)
    ensures !Field(d, "items").Arr? ==> r == Ok(EmptyObject)
    ensures Field(d, "items").Arr? ==> (r.Ok? <==> NoNullish(Field(d, "items").elems))
    ensures r.Throw? ==> r.fault == TypeError
    ensures r.Ok? ==> r.value.Obj? && forall k :: k in r.value.fields ==> r.value.fields[k] == EmptyObject
    ensures r.Ok? && Field(d, "items").Arr? ==> r.value.fields.Keys == TabKeys(Field(d, "items").elems)
  {
    var items := Field(d, "items");
    if items.Arr? then
      var m :- TabsFold(items.elems);
      Ok(Obj(m))
    else Ok(EmptyObject)
  }

  // ---------------------------------------------------------------------------
  // Group repeat and group repeat with variants

  /** The property keys the regions of a grouped repeat name. */
  function RegionKeys(regions: seq<Value>): set<string>
    requires NoNullish(regions)
  {
    set i | 0 <= i < |regions| :: ToString(Prop(regions[i], "name"))
  }

  /** `out` is `declared` with every region key mapped to an array: an array
      already there is kept, anything else becomes `[]`, and every other key
      is carried over unchanged. */
  ghost predicate RegionsFilled(declared: map<string, Value>, keys: set<string>, out: map<string, Value>) {
    && out.Keys == declared.Keys + keys
    && (forall k :: k in keys ==> out[k] == (if k in declared && declared[k].Arr? then declared[k] else Arr([])))
    && (forall k :: k in declared && k !in keys ==> out[k] == declared[k])
  }

  /** The loop over `definition.config.regions` shared by both grouped repeats. */
  function FillRegions(declared: map<string, Value>, regions: seq<Value>): (r: Result<map<string, Value>>)
    ensures r.Ok? <==> NoNullish(regions)
    ensures r.Throw? ==> r.fault == TypeError
    ensures r.Ok? ==> RegionsFilled(declared, RegionKeys(regions), r.value)
    decreases |regions|
  {
    if |regions| == 0 then Ok(declared)
    else
      var acc :- FillRegions(declared, regions[..|regions| - 1]);
      var name :- GetProp(regions[|regions| - 1], "name");
      var k := ToString(name);
      RegionKeysSnoc(regions);
      FillRegionStep(declared, RegionKeys(regions[..|regions| - 1]), acc, k);
      if k !in acc || !acc[k].Arr? then Ok(acc[k := Arr([])]) else Ok(acc)
  }

  /** The keys of a region list are those of its front plus the last name. */
  lemma RegionKeysSnoc(regions: seq<Value>)
    requires |regions| > 0 && NoNullish(regions[..|regions| - 1]) && !IsNullish(regions[|regions| - 1])
    ensures NoNullish(regions)
    ensures RegionKeys(regions)
            == RegionKeys(regions[..|regions| - 1]) + {ToString(Prop(regions[|regions| - 1], "name"))}
  {
    var front := regions[..|regions| - 1];
    assert forall i :: 0 <= i < |front| ==> front[i] == regions[i];
  }

  /** One more region keeps the accumulated map filled. */
  lemma FillRegionStep(declared: map<string, Value>, keys: set<string>, acc: map<string, Value>, k: string)
    requires RegionsFilled(declared, keys, acc)
    ensures RegionsFilled(declared, keys + {k}, if k !in acc || !acc[k].Arr? then acc[k := Arr([])] else acc)
  {
  }

  /** The default shared by GroupRepeatParser and GroupRepeatVariantsParser. */
  function RegionDefault(d: Definition): Result<Value> {
    var regions :- GetProp(Field(d, "config"), "regions");
    if regions.Arr? then
      var m :- FillRegions(DeclaredObject(d), regions.elems);
      Ok(Obj(m))
    else Ok(Obj(DeclaredObject(d)))
  }

  /** The outcome promised for a grouped repeat's default. */
  ghost predicate RegionDefaultSpec(d: Definition, r: Result<Value>) {
    var config := Field(d, "config");
    && (IsNullish(config) ==> r == Throw(TypeError))
    && (!IsNullish(config) && !Prop(config, "regions").Arr? ==> r == Ok(Obj(DeclaredObject(d))))
    && (!IsNullish(config) && Prop(config, "regions").Arr? ==>
          var regions := Prop(config, "regions").elems;
          && (r.Ok? <==> NoNullish(regions))
          && (r.Throw? ==> r.fault == TypeError)
          && (r.Ok? ==> r.value.Obj? && RegionsFilled(DeclaredObject(d), RegionKeys(regions), r.value.fields)))
  }

  /** GroupRepeatParser.getDefault: every configured region name maps to an
      array, other keys of an object default are kept; a missing config
      throws. */
  function GroupRepeatDefault(d: Definition): (r: Result<Value>)
    ensures RegionDefaultSpec(d, r)
  {
    RegionDefault(d)
  }

  /** GroupRepeatVariantsParser.getDefault: the same rules as the grouped repeat. */
  function GroupRepeatVariantsDefault(d: Definition): (r: Result<Value>)
    ensures RegionDefaultSpec(d, r)
  {
    RegionDefault(d)
  }

  /** Filling the regions of a default that is already filled changes nothing:
      computing the default again from a definition whose default is the
      computed one gives the same value. */
  lemma GroupRepeatDefaultIdempotent(d: Definition)
    requires GroupRepeatDefault(d).Ok?
    ensures var d' := d["default" := GroupRepeatDefault(d).value];
            GroupRepeatDefault(d') == GroupRepeatDefault(d)
  {
    var config := Field(d, "config");
    var out := GroupRepeatDefault(d).value;
    var d' := d["default" := out];
    assert Field(d', "config") == config;
    assert DeclaredObject(d') == out.fields;
    if Prop(config, "regions").Arr? {
      var regions := Prop(config, "regions").elems;
      assert RegionsFilled(DeclaredObject(d), RegionKeys(regions), out.fields);
      var again := GroupRepeatDefault(d').value;
      RefillChangesNothing(DeclaredObject(d), RegionKeys(regions), out.fields, again.fields);
    }
  }

  /** Filling a map that is already filled for the same keys gives it back. */
  lemma RefillChangesNothing(declared: map<string, Value>, keys: set<string>, out: map<string, Value>, again: map<string, Value>)
    requires RegionsFilled(declared, keys, out)
    requires RegionsFilled(out, keys, again)
    ensures again == out
  {
  }

  // ---------------------------------------------------------------------------
  // Variant

  /** The discriminator key: a truthy `config.variantField`, else "variant_name". */
  function VariantField(d: Definition): string {
    var config := Field(d, "config");
    if Truthy(config) && Truthy(Prop(config, "variantField"))
    then ToString(Prop(config, "variantField"))
    else "variant_name"
  }

  /** VariantParser.getDefault: `{[f]: null, ...definition.default}`, so the
      discriminator key is always present, a declared value for it wins, and
      every other key of an object default is kept. */
  function VariantDefault(d: Definition): (r: Value)
    ensures r.Obj?
    ensures r.fields.Keys == DeclaredObject(d).Keys + {VariantField(d)}
    ensures VariantField(d) !in DeclaredObject(d) ==> r.fields[VariantField(d)] == Null
    ensures forall k :: k in DeclaredObject(d) ==> r.fields[k] == DeclaredObject(d)[k]
  {
    Obj(map[VariantField(d) := Null] + DeclaredObject(d))
  }

  /** VariantParser.getConfig (and the identical getConfig of the variant
      repeats): a falsy `variantField` is set to "variant_name" on the config
      object itself. */
  function VariantConfig(d: Definition): (r: Result<Value>)
    ensures IsNullish(Field(d, "config")) ==> r == Throw(TypeError)
    ensures Field(d, "config").Obj? ==> r.Ok?
    ensures r.Ok? ==> !IsNullish(r.value) && Truthy(Prop(r.value, "variantField"))
    ensures !IsNullish(Field(d, "config")) && Truthy(Prop(Field(d, "config"), "variantField")) ==>
              r == Ok(Field(d, "config"))
    ensures Field(d, "config").Obj? && !Truthy(Prop(Field(d, "config"), "variantField")) ==>
              r == Ok(Obj(Field(d, "config").fields["variantField" := Str("variant_name")]))
    ensures !IsNullish(Field(d, "config")) && !IsObjectType(Field(d, "config")) &&
            !Truthy(Prop(Field(d, "config"), "variantField")) ==>
              r == Throw(TypeError)
    ensures Field(d, "config").Arr? && !Truthy(Prop(Field(d, "config"), "variantField")) ==>
              r == Throw(Unmodelled)
  {
    var config := Field(d, "config");
    var f :- GetProp(config, "variantField");
    if !Truthy(f) then SetProp(config, "variantField", Str("variant_name")) else Ok(config)
  }

  /** The key the default puts the discriminator under is the key the
      configuration names, so the model and the validator tree agree. */
  lemma VariantConfigAgreesWithDefault(d: Definition)
    requires VariantConfig(d).Ok?
    ensures ToString(Prop(VariantConfig(d).value, "variantField")) == VariantField(d)
    ensures VariantField(d) in VariantDefault(d).fields
  {
  }

  // ---------------------------------------------------------------------------
  // Range

  const RangeFallback: Value := Arr([Num(0), Num(100)])

  /** RangeParser.getDefault as written: any definition with an own `default`
      key evaluates the undeclared `definitions` and throws. */
  function RangeDefaultAsWritten(d: Definition): (r: Result<Value>)
    ensures r.Throw? <==> "default" in d
    ensures r.Throw? ==> r.fault == ReferenceError
  {
    if "default" in d then Throw(ReferenceError)
    else if Nullable(d) then Ok(Null)
    else Ok(RangeFallback)
  }

  /** `xs[i]`, undefined past the end */
  function ElemOr(xs: seq<Value>, i: nat): Value {
    if i < |xs| then xs[i] else Undefined
  }

  /** RangeParser.getDefault as evidently intended: an array default becomes
      the pair `[Number(d[0]), Number(d[1])]`; anything else falls back to null
      for a nullable control and `[0, 100]` otherwise. */
  function RangeDefault(d: Definition): (r: Result<Value>)
    ensures r.Throw? ==> r.fault == Unmodelled
    ensures !Default(d).Arr? ==> r == Ok(if Nullable(d) then Null else RangeFallback)
    ensures r.Ok? && Default(d).Arr? ==>
              r.value.Arr? && |r.value.elems| == 2
              && (forall i :: 0 <= i < 2 ==> r.value.elems[i].Num? || r.value.elems[i].NaN?)
    ensures Default(d).Arr? && |Default(d).elems| >= 2
            && Default(d).elems[0].Num? && Default(d).elems[1].Num?
            ==> r == Ok(Arr(Default(d).elems[..2]))
  {
    var def := Default(d);
    if def.Arr? then
      var low :- ToNumeric(ElemOr(def.elems, 0));
      var high :- ToNumeric(ElemOr(def.elems, 1));
      assert |def.elems| >= 2 ==> def.elems[..2] == [def.elems[0], def.elems[1]];
      Ok(Arr([low, high]))
    else if Nullable(d) then Ok(Null)
    else Ok(RangeFallback)
  }

  /** The typo only matters when a default is declared: without one, the
      code as written and the corrected code agree. */
  lemma RangeDefaultFixAgrees(d: Definition)
    requires "default" !in d
    ensures RangeDefaultAsWritten(d) == RangeDefault(d)
  {
  }

  /** The input that shows the typo: a declared `[10, 20]` should be the
      default but throws a ReferenceError. */
  lemma RangeDefaultTypoWitness()
    ensures RangeDefaultAsWritten(map["default" := Arr([Num(10), Num(20)])]) == Throw(ReferenceError)
    ensures RangeDefault(map["default" := Arr([Num(10), Num(20)])]) == Ok(Arr([Num(10), Num(20)]))
  {
  }

  // ---------------------------------------------------------------------------
  // Icon

  /** The validation rule the icon parser injects: an empty string or
      `set:name` with letters, digits, '-' and '_' on both sides. */
  const IconPattern: Value :=
    Obj(map[
      "value" := Str("^(|([a-zA-Z0-9\\-\\_]+\\:[a-zA-Z0-9\\-\\_]+))$"),
      "key" := Str("validation.icon"),
      "text" := Str("Invalid icon format")
    ])

  /** The definition IconParser.parse hands on to the string parser: a missing
      validation object becomes `{}`, and a pattern is added only when none is
      given. Writing the pattern onto a primitive validation throws. */
  function IconValidation(d: Definition): (r: Result<Definition>)
    ensures r.Ok? ==> "validation" in r.value && !IsNullish(r.value["validation"])
                      && Truthy(Prop(r.value["validation"], "pattern"))
    ensures r.Ok? ==> r.value.Keys == d.Keys + {"validation"}
                      && forall k :: k in d && k != "validation" ==> r.value[k] == d[k]
    ensures Truthy(Field(d, "validation")) && Truthy(Prop(Field(d, "validation"), "pattern")) ==> r == Ok(d)
    ensures !Truthy(Field(d, "validation")) ==> r == Ok(d["validation" := Obj(map["pattern" := IconPattern])])
    ensures Field(d, "validation").Obj? && !Truthy(Prop(Field(d, "validation"), "pattern")) ==>
              r == Ok(d["validation" := Obj(Field(d, "validation").fields["pattern" := IconPattern])])
    ensures r.Throw? <==> Truthy(Field(d, "validation")) && !Field(d, "validation").Obj?
                          && !Truthy(Prop(Field(d, "validation"), "pattern"))
    ensures Truthy(Field(d, "validation")) && !IsObjectType(Field(d, "validation")) &&
            !Truthy(Prop(Field(d, "validation"), "pattern")) ==>
              r == Throw(TypeError)
    ensures Field(d, "validation").Arr? && !Truthy(Prop(Field(d, "validation"), "pattern")) ==>
              r == Throw(Unmodelled)
  {
    var v := if Truthy(Field(d, "validation")) then Field(d, "validation") else EmptyObject;
    if Truthy(Prop(v, "pattern")) then
      assert Truthy(Field(d, "validation")) ==> d["validation" := v] == d;
      Ok(d["validation" := v])
    else
      var v' :- SetProp(v, "pattern", IconPattern);
      Ok(d["validation" := v'])
  }

  /** Parsing an icon definition twice adds nothing the first pass did not. */
  lemma IconValidationIdempotent(d: Definition)
    requires IconValidation(d).Ok?
    ensures IconValidation(IconValidation(d).value) == IconValidation(d)
  {
  }
}

=== FILE: select_items.dfy ===
/** SelectParser.getItems: the item list of a select control. A grouped
    select ("select-group") flattens its groups into one list: empty groups
    are skipped, each remaining group contributes a header followed by its
    items, a divider separates consecutive groups, and every item gets its
    title property, `''` standing in for a falsy one. */
module SelectItems {
  import opened JsValue
  import Parsers

  /** The property keys the flattening reads, from the built configuration. */
  datatype GroupKeys = GroupKeys(itemsKey: string, titleKey: string, groupTitleKey: string)

  function KeysOf(config: map<string, Value>): GroupKeys {
    GroupKeys(
      ToString(Field(config, "itemsProp")),
      ToString(Field(config, "titleProp")),
      ToString(Field(config, "groupTitleProp")))
  }

  const Divider: Value := Obj(map["divider" := Bool(true)])

  function Header(title: Value): Value {
    Obj(map["header" := title])
  }

  /** `group[itemsProp]` is an array with at least one element; any other
      group is skipped. */
  predicate HasItems(group: Value, k: GroupKeys)
    requires !IsNullish(group)
  {
    var xs := Prop(group, k.itemsKey);
    xs.Arr? && |xs.elems| > 0
  }

  /** The item has its title property, truthy or the empty string. */
  predicate TitleSet(item: Value, titleKey: string) {
    !IsNullish(item) && (Truthy(Prop(item, titleKey)) || Prop(item, titleKey) == Str(""))
  }

  // ---------------------------------------------------------------------------
  // Reference definition

  /** `if (!item[titleProp]) item[titleProp] = ''` */
  function FillTitle(item: Value, titleKey: string): (r: Result<Value>)
    ensures r.Ok? ==> TitleSet(r.value, titleKey)
    ensures !IsNullish(item) && Truthy(Prop(item, titleKey)) ==> r == Ok(item)
    ensures item.Obj? ==> r.Ok?
    ensures item.Obj? && !Truthy(Prop(item, titleKey)) ==>
              r == Ok(Obj(item.fields[titleKey := Str("")]))
    ensures IsNullish(item) ==> r == Throw(TypeError)
    ensures !IsNullish(item) && !IsObjectType(item) && !Truthy(Prop(item, titleKey)) ==>
              r == Throw(TypeError)
  {
    var title :- GetProp(item, titleKey);
    if Truthy(title) then Ok(item)
    else
      var filled := SetProp(item, titleKey, Str(""));
      if filled.Ok? then GetAfterSet(item, titleKey, Str("")); filled else filled
  }

  /** FillTitle over a list, stopping at the first failure. */
  function FillTitles(items: seq<Value>, titleKey: string): (r: Result<seq<Value>>)
    ensures r.Ok? <==> forall i :: 0 <= i < |items| ==> FillTitle(items[i], titleKey).Ok?
    ensures r.Ok? ==> |r.value| == |items|
    ensures r.Ok? ==> forall i :: 0 <= i < |items| ==> r.value[i] == FillTitle(items[i], titleKey).value
    decreases |items|
  {
    if |items| == 0 then Ok([])
    else
      var front := items[..|items| - 1];
      assert forall i :: 0 <= i < |front| ==> front[i] == items[i];
      var done :- FillTitles(front, titleKey);
      var last :- FillTitle(items[|items| - 1], titleKey);
      Ok(done + [last])
  }

  /** What one group contributes: nothing for a group without items, else its
      header followed by its items with their titles filled in. A null or
      undefined group throws. */
  function Block(group: Value, k: GroupKeys): Result<Option<seq<Value>>> {
    var xs :- GetProp(group, k.itemsKey);
    if !HasItems(group, k) then Ok(None)
    else
      var filled :- FillTitles(xs.elems, k.titleKey);
      Ok(Some([Header(Prop(group, k.groupTitleKey))] + filled))
  }

  /** The blocks of all groups, in order, stopping at the first failure. */
  function Blocks(groups: seq<Value>, k: GroupKeys): (r: Result<seq<seq<Value>>>)
    ensures r.Ok? ==> NoNullish(groups)
    decreases |groups|
  {
    if |groups| == 0 then Ok([])
    else
      var front :- Blocks(groups[..|groups| - 1], k);
      var b :- Block(groups[|groups| - 1], k);
      assert NoNullish(groups) by {
        assert forall i :: 0 <= i < |groups| - 1 ==> groups[i] == groups[..|groups| - 1][i];
      }
      if b.Some? then Ok(front + [b.value]) else Ok(front)
  }

  /** The blocks joined with `sep` between consecutive blocks. */
  function Intersperse(bs: seq<seq<Value>>, sep: Value): seq<Value>
    decreases |bs|
  {
    if |bs| == 0 then []
    else if |bs| == 1 then bs[0]
    else Intersperse(bs[..|bs| - 1], sep) + [sep] + bs[|bs| - 1]
  }

  /** The grouped list: blocks separated by dividers. */
  function Grouped(groups: seq<Value>, k: GroupKeys): Result<seq<Value>> {
    var bs :- Blocks(groups, k);
    Ok(Intersperse(bs, Divider))
  }

  // ---------------------------------------------------------------------------
  // The loop as the source writes it

  /** The inner loop of the grouped branch: fill in each item's title. */
  method FillGroupItems(xs: seq<Value>, titleKey: string) returns (r: Result<seq<Value>>)
    ensures r == FillTitles(xs, titleKey)
  {
    var out: seq<Value> := [];
    var j := 0;
    while j < |xs|
      invariant 0 <= j <= |xs|
      invariant FillTitles(xs[..j], titleKey) == Ok(out)
    {
      assert xs[..j + 1][..j] == xs[..j];
      var filled := FillTitle(xs[j], titleKey);
      if filled.Throw? {
        r := Throw(filled.fault);
        FillTitlesFailureSticks(xs, j + 1, titleKey);
        return;
      }
      out := out + [filled.value];
      j := j + 1;
    }
    assert xs[..j] == xs;
    r := Ok(out);
  }

  /** The grouped branch of getItems: one pass over the groups with a `first`
      flag deciding whether a divider goes before the header. */
  method FlattenGroups(groups: seq<Value>, k: GroupKeys) returns (r: Result<seq<Value>>)
    ensures r == Grouped(groups, k)
  {
    var items: seq<Value> := [];
    var first := true;
    var i := 0;
    while i < |groups|
      invariant 0 <= i <= |groups|
      invariant Blocks(groups[..i], k).Ok?
      invariant items == Intersperse(Blocks(groups[..i], k).value, Divider)
      invariant first <==> |Blocks(groups[..i], k).value| == 0
    {
      var group := groups[i];
      BlocksStep(groups, i, k);
      if IsNullish(group) {
        r := Throw(TypeError);
        BlocksFailureSticks(groups, i + 1, k);
        return;
      }
      if !HasItems(group, k) {
        i := i + 1;
        continue;
      }
      var filled := FillGroupItems(Prop(group, k.itemsKey).elems, k.titleKey);
      if filled.Throw? {
        r := Throw(filled.fault);
        BlocksFailureSticks(groups, i + 1, k);
        return;
      }
      var block := [Header(Prop(group, k.groupTitleKey))] + filled.value;
      IntersperseSnoc(Blocks(groups[..i], k).value, block, Divider);
      if first {
        first := false;
      } else {
        items := items + [Divider];
      }
      items := items + block;
      i := i + 1;
    }
    assert groups[..i] == groups;
    r := Ok(items);
  }

  lemma BlocksSnoc(groups: seq<Value>, i: nat, k: GroupKeys)
    requires i < |groups|
    ensures Blocks(groups[..i + 1], k)
            == (var front :- Blocks(groups[..i], k);
                var b :- Block(groups[i], k);
                if b.Some? then Ok(front + [b.value]) else Ok(front))
  {
    assert groups[..i + 1][..i] == groups[..i];
  }

  /** What one more group does to the blocks of a prefix that succeeded. */
  lemma BlocksStep(groups: seq<Value>, i: nat, k: GroupKeys)
    requires i < |groups| && Blocks(groups[..i], k).Ok?
    ensures IsNullish(groups[i]) ==> Blocks(groups[..i + 1], k) == Throw(TypeError)
    ensures !IsNullish(groups[i]) && !HasItems(groups[i], k)
            ==> Blocks(groups[..i + 1], k) == Blocks(groups[..i], k)
    ensures !IsNullish(groups[i]) && HasItems(groups[i], k) ==>
              var filled := FillTitles(Prop(groups[i], k.itemsKey).elems, k.titleKey);
              && (filled.Throw? ==> Blocks(groups[..i + 1], k) == Throw(filled.fault))
              && (filled.Ok? ==> Blocks(groups[..i + 1], k)
                                 == Ok(Blocks(groups[..i], k).value
                                       + [[Header(Prop(groups[i], k.groupTitleKey))] + filled.value]))
  {
    BlocksSnoc(groups, i, k);
  }

  lemma IntersperseSnoc(bs: seq<seq<Value>>, b: seq<Value>, sep: Value)
    ensures Intersperse(bs + [b], sep) == if |bs| == 0 then b else Intersperse(bs, sep) + [sep] + b
  {
    assert (bs + [b])[..|bs|] == bs;
  }

  /** Once a prefix of a group's items fails, the whole list fails the same way. */
  lemma {:induction false} FillTitlesFailureSticks(items: seq<Value>, n: nat, titleKey: string)
    requires n <= |items|
    requires FillTitles(items[..n], titleKey).Throw?
    ensures FillTitles(items, titleKey) == FillTitles(items[..n], titleKey)
    decreases |items| - n
  {
    if n < |items| {
      assert items[..n + 1][..n] == items[..n];
      FillTitlesFailureSticks(items, n + 1, titleKey);
    } else {
      assert items[..n] == items;
    }
  }

  /** Once a prefix of the groups fails, the whole list fails the same way. */
  lemma {:induction false} BlocksFailureSticks(groups: seq<Value>, n: nat, k: GroupKeys)
    requires n <= |groups|
    requires Blocks(groups[..n], k).Throw?
    ensures Blocks(groups, k) == Blocks(groups[..n], k)
    decreases |groups| - n
  {
    if n < |groups| {
      assert groups[..n + 1][..n] == groups[..n];
      BlocksFailureSticks(groups, n + 1, k);
    } else {
      assert groups[..n] == groups;
    }
  }

  // ---------------------------------------------------------------------------
  // getItems

  /** SelectParser.getItems with the configuration getConfig builds: no array
      of items gives `[]`, an ungrouped select keeps its items as they are,
      and a grouped one flattens its groups. */
  method GetItems(d: Parsers.Definition, group: Value) returns (r: Result<seq<Value>>)
    ensures !Field(d, "items").Arr? ==> r == Ok([])
    ensures Field(d, "items").Arr? && !Truthy(group) ==> r == Ok(Field(d, "items").elems)
    ensures Field(d, "items").Arr? && Truthy(group)
            ==> r == Grouped(Field(d, "items").elems, KeysOf(Parsers.SelectConfig(d, group)))
  {
    var items := Field(d, "items");
    if !Truthy(items) || !items.Arr? {
      return Ok([]);
    }
    var config := Parsers.SelectConfig(d, group);
    if !Truthy(Field(config, "group")) {
      return Ok(items.elems);
    }
    r := FlattenGroups(items.elems, KeysOf(config));
  }

  // ---------------------------------------------------------------------------
  // Properties of the grouped list

  /** The items of a kept group. */
  function ItemsOf(g: Value, k: GroupKeys): seq<Value>
    requires !IsNullish(g) && HasItems(g, k)
  {
    Prop(g, k.itemsKey).elems
  }

  /** The groups that contribute a block, in their original order. */
  ghost function NonEmptyGroups(groups: seq<Value>, k: GroupKeys): (kept: seq<Value>)
    requires NoNullish(groups)
    ensures forall j :: 0 <= j < |kept| ==> !IsNullish(kept[j]) && HasItems(kept[j], k)
    decreases |groups|
  {
    if |groups| == 0 then []
    else
      var front := groups[..|groups| - 1];
      assert NoNullish(front) by { assert forall i :: 0 <= i < |front| ==> front[i] == groups[i]; }
      NonEmptyGroups(front, k) + (if HasItems(groups[|groups| - 1], k) then [groups[|groups| - 1]] else [])
  }

  /** A group is kept exactly when its items are a non-empty array. */
  lemma {:induction false} NonEmptyGroupsFilter(groups: seq<Value>, k: GroupKeys)
    requires NoNullish(groups)
    ensures forall g :: g in NonEmptyGroups(groups, k) ==> g in groups && HasItems(g, k)
    ensures forall i :: 0 <= i < |groups| && HasItems(groups[i], k) ==> groups[i] in NonEmptyGroups(groups, k)
    decreases |groups|
  {
    if |groups| > 0 {
      var front := groups[..|groups| - 1];
      assert forall i :: 0 <= i < |front| ==> front[i] == groups[i];
      NonEmptyGroupsFilter(front, k);
    }
  }

  /** The flattening succeeds exactly when no group is null or undefined and
      every item of a kept group can take a title; it then has one block per
      kept group: the group's header and its items, titles filled in. */
  lemma {:induction false} BlocksOfKeptGroups(groups: seq<Value>, k: GroupKeys)
    ensures Blocks(groups, k).Ok?
            <==> (NoNullish(groups)
                  && forall i :: 0 <= i < |groups| && HasItems(groups[i], k)
                       ==> FillTitles(Prop(groups[i], k.itemsKey).elems, k.titleKey).Ok?)
    ensures Blocks(groups, k).Ok? ==>
              var bs := Blocks(groups, k).value;
              var kept := NonEmptyGroups(groups, k);
              && |bs| == |kept|
              && forall j :: 0 <= j < |bs| ==>
                   && FillTitles(ItemsOf(kept[j], k), k.titleKey).Ok?
                   && bs[j] == [Header(Prop(kept[j], k.groupTitleKey))]
                               + FillTitles(ItemsOf(kept[j], k), k.titleKey).value
    decreases |groups|
  {
    if |groups| > 0 {
      var front := groups[..|groups| - 1];
      var last := groups[|groups| - 1];
      assert forall i :: 0 <= i < |front| ==> front[i] == groups[i];
      BlocksOfKeptGroups(front, k);
    }
  }

  function SumLengths(bs: seq<seq<Value>>): nat
    decreases |bs|
  {
    if |bs| == 0 then 0 else SumLengths(bs[..|bs| - 1]) + |bs[|bs| - 1]|
  }

  /** How often `x` occurs across all blocks. */
  function CountIn(bs: seq<seq<Value>>, x: Value): nat
    decreases |bs|
  {
    if |bs| == 0 then 0 else CountIn(bs[..|bs| - 1], x) + multiset(bs[|bs| - 1])[x]
  }

  /** Joining n blocks adds exactly n - 1 separators. */
  lemma {:induction false} IntersperseLength(bs: seq<seq<Value>>, sep: Value)
    ensures |Intersperse(bs, sep)| == SumLengths(bs) + (if |bs| == 0 then 0 else |bs| - 1)
    decreases |bs|
  {
    if |bs| > 1 {
      IntersperseLength(bs[..|bs| - 1], sep);
    } else if |bs| == 1 {
      assert bs[..0] == [];
    }
  }

  /** Counted by value: the separator occurs once between each pair of
      consecutive blocks, on top of its occurrences inside the blocks. */
  lemma {:induction false} IntersperseCount(bs: seq<seq<Value>>, sep: Value, x: Value)
    ensures multiset(Intersperse(bs, sep))[x]
            == CountIn(bs, x) + (if x == sep && |bs| > 0 then |bs| - 1 else 0)
    decreases |bs|
  {
    if |bs| > 1 {
      IntersperseCount(bs[..|bs| - 1], sep, x);
    } else if |bs| == 1 {
      assert bs[..0] == [];
    }
  }

  /** Every element of the joined list is the separator or comes from a block. */
  lemma {:induction false} IntersperseMembers(bs: seq<seq<Value>>, sep: Value, x: Value)
    requires x in Intersperse(bs, sep)
    ensures x == sep || exists j :: 0 <= j < |bs| && x in bs[j]
    decreases |bs|
  {
    if |bs| > 1 {
      var front := bs[..|bs| - 1];
      if x in Intersperse(front, sep) {
        IntersperseMembers(front, sep, x);
        if x != sep {
          var j :| 0 <= j < |front| && x in front[j];
          assert bs[j] == front[j];
        }
      }
    }
  }

  /** A grouped list with n kept groups holds n - 1 dividers beyond any
      divider-shaped items of its own, and exactly the kept groups' items
      besides the headers. */
  lemma {:induction false} GroupedDividers(groups: seq<Value>, k: GroupKeys)
    requires Grouped(groups, k).Ok?
    ensures var n := |NonEmptyGroups(groups, k)|;
            var bs := Blocks(groups, k).value;
            && multiset(Grouped(groups, k).value)[Divider]
               == CountIn(bs, Divider) + (if n == 0 then 0 else n - 1)
            && |Grouped(groups, k).value| == SumLengths(bs) + (if n == 0 then 0 else n - 1)
  {
    BlocksOfKeptGroups(groups, k);
    IntersperseCount(Blocks(groups, k).value, Divider, Divider);
    IntersperseLength(Blocks(groups, k).value, Divider);
  }

  predicate IsHeader(x: Value) {
    x.Obj? && x.fields.Keys == {"header"}
  }

  /** Every element of a grouped list is a divider, a header, or an item
      whose title property is set. */
  lemma GroupedTitlesSet(groups: seq<Value>, k: GroupKeys)
    requires Grouped(groups, k).Ok?
    ensures forall x :: x in Grouped(groups, k).value ==> x == Divider || IsHeader(x) || TitleSet(x, k.titleKey)
  {
    var bs := Blocks(groups, k).value;
    var kept := NonEmptyGroups(groups, k);
    BlocksOfKeptGroups(groups, k);
    forall x | x in Grouped(groups, k).value
      ensures x == Divider || IsHeader(x) || TitleSet(x, k.titleKey)
    {
      IntersperseMembers(bs, Divider, x);
      if x != Divider {
        var j :| 0 <= j < |bs| && x in bs[j];
        var items := ItemsOf(kept[j], k);
        BlockMember(bs[j], Prop(kept[j], k.groupTitleKey), items, k.titleKey, x);
      }
    }
  }

  /** An element of one block is its header or one of its filled items. */
  lemma BlockMember(b: seq<Value>, title: Value, items: seq<Value>, titleKey: string, x: Value)
    requires FillTitles(items, titleKey).Ok?
    requires b == [Header(title)] + FillTitles(items, titleKey).value
    requires x in b
    ensures IsHeader(x) || TitleSet(x, titleKey)
  {
    var filled := FillTitles(items, titleKey).value;
    if x != Header(title) {
      var i :| 0 <= i < |filled| && filled[i] == x;
    }
  }
}

=== FILE: widgets.dfy ===
/** The pure helpers of the widgets: the icon class name, the grid flags of a
    column, the label under a slider tick, and the bound on the number of
    items a repeat may hold. */
module Widgets {
  import opened JsValue

  // ---------------------------------------------------------------------------
  // Icon class names

  /** The position of the first `c` in `s`. */
  function IndexOf(s: string, c: char): (i: nat)
    requires c in s
    ensures i < |s| && s[i] == c && c !in s[..i]
  {
    if s[0] == c then 0
    else
      assert s == [s[0]] + s[1..];
      1 + IndexOf(s[1..], c)
  }

  /** `s.split(c)` for a one-character separator. */
  function Split(s: string, c: char): (parts: seq<string>)
    ensures |parts| > 0
    decreases |s|
  {
    if c !in s then [s]
    else
      var i := IndexOf(s, c);
      [s[..i]] + Split(s[i + 1..], c)
  }

  /** `parts.join(c)` */
  function Join(parts: seq<string>, c: char): string
    requires |parts| > 0
  {
    if |parts| == 1 then parts[0] else parts[0] + [c] + Join(parts[1..], c)
  }

  /** Splitting and joining again gives the string back, and no part holds
      the separator. */
  lemma {:induction false} SplitJoin(s: string, c: char)
    ensures Join(Split(s, c), c) == s
    ensures forall p :: p in Split(s, c) ==> c !in p
    decreases |s|
  {
    if c in s {
      var i := IndexOf(s, c);
      SplitJoin(s[i + 1..], c);
      assert s == s[..i] + [c] + s[i + 1..];
    }
  }

  /** `s[i]` is the first separator and `s[i+1..j]` is the part after it:
      `j` is the next separator or the end of the string. */
  ghost predicate FirstTwoParts(s: string, c: char, i: int, j: int) {
    && 0 <= i < j <= |s|
    && s[i] == c
    && c !in s[..i]
    && c !in s[i + 1..j]
    && (j == |s| || s[j] == c)
  }

  /** `$controlIcon`: a non-string gives undefined, a string without ':' is
      returned as is, and `set:name` becomes `set fa-name` (anything after a
      second ':' is dropped). */
  function ControlIcon(icon: Value): (r: Value)
    ensures !icon.Str? ==> r == Undefined
    ensures icon.Str? && ':' !in icon.s ==> r == icon
    ensures icon.Str? && ':' in icon.s ==>
              exists i, j :: FirstTwoParts(icon.s, ':', i, j) && r == Str(icon.s[..i] + " fa-" + icon.s[i + 1..j])
  {
    if !icon.Str? then Undefined
    else if ':' !in icon.s then icon
    else
      var parts := Split(icon.s, ':');
      var s := icon.s;
      var i := IndexOf(s, ':');
      var rest := s[i + 1..];
      var j := if ':' in rest then i + 1 + IndexOf(rest, ':') else |s|;
      assert parts == [s[..i]] + Split(rest, ':');
      assert Split(rest, ':')[0] == if ':' in rest then rest[..IndexOf(rest, ':')] else rest;
      assert rest[..j - (i + 1)] == s[i + 1..j];
      assert ':' !in rest ==> rest == s[i + 1..j];
      assert parts[1] == s[i + 1..j];
      assert FirstTwoParts(s, ':', i, j);
      Str(parts[0] + " fa-" + parts[1])
  }

  /** An icon written `set:name` gives the class list `set fa-name`. */
  lemma ControlIconOfSetAndName(set_: string, name: string)
    requires ':' !in set_ && ':' !in name
    ensures ControlIcon(Str(set_ + ":" + name)) == Str(set_ + " fa-" + name)
  {
  }

  // ---------------------------------------------------------------------------
  // Grid flags of a column

  const Devices: seq<string> := ["xs", "sm", "md", "lg", "xl"]

  /** One flag per device key present in a device-keyed size object. */
  function DeviceFlags(m: map<string, Value>, prefix: string): set<string> {
    set d | d in Devices && d in m :: prefix + d + ToString(m[d])
  }

  /** `setDeviceProps(container, props, prefix, default_prefix)`, the flags
      being the keys the container sets to true. An object gets one flag per
      device key it holds; a truthy scalar gets one flag under the default
      prefix when there is one (`None` stands for the null default); null
      throws because `typeof null` is 'object'. */
  function SetDeviceProps(container: set<string>, props: Value, prefix: string, defaultPrefix: Option<string>)
    : (r: Result<set<string>>)
    ensures props.Null? ==> r == Throw(TypeError)
    ensures !props.Null? ==> r.Ok? && container <= r.value
    ensures props.Obj? ==>
              && (forall d :: d in Devices && d in props.fields ==> prefix + d + ToString(props.fields[d]) in r.value)
              && (forall f :: f in r.value - container ==>
                    exists d :: d in Devices && d in props.fields && f == prefix + d + ToString(props.fields[d]))
    ensures props.Arr? ==> r == Ok(container)
    ensures !IsObjectType(props) && Truthy(props) && defaultPrefix.Some? && defaultPrefix.value != ""
            ==> r == Ok(container + {defaultPrefix.value + ToString(props)})
    ensures !IsObjectType(props) && (!Truthy(props) || defaultPrefix.None? || defaultPrefix.value == "")
            ==> r == Ok(container)
  {
    if IsObjectType(props) then
      match props
      case Null => Throw(TypeError)
      case Obj(m) => Ok(container + DeviceFlags(m, prefix))
      case Arr(_) => Ok(container)
    else if Truthy(props) && defaultPrefix.Some? && defaultPrefix.value != "" then
      Ok(container + {defaultPrefix.value + ToString(props)})
    else Ok(container)
  }

  /** The `colProps` of a column: it never throws (a null size or offset is
      falsy and skipped), and its flags are the size flags and the offset
      flags each would set on an empty container. */
  function ColProps(display: map<string, Value>): (r: Result<set<string>>)
    ensures r.Ok?
    ensures r.value ==
              (if Truthy(Field(display, "size"))
               then SetDeviceProps({}, Field(display, "size"), "", Some("md")).value else {})
              + (if Truthy(Field(display, "offset"))
                 then SetDeviceProps({}, Field(display, "offset"), "offset-", Some("offset-md")).value else {})
  {
    var size := Field(display, "size");
    var offset := Field(display, "offset");
    var p := if Truthy(size) then SetDeviceProps({}, size, "", Some("md")).value else {};
    if Truthy(offset) then SetDeviceProps(p, offset, "offset-", Some("offset-md")) else Ok(p)
  }

  /** A plain numeric size and offset give the medium-device flags. */
  lemma ColPropsOfNumbers(size: int, offset: int)
    requires size != 0 && offset != 0
    ensures ColProps(map["size" := Num(size), "offset" := Num(offset)])
            == Ok({"md" + IntToString(size), "offset-md" + IntToString(offset)})
  {
    var none: set<string> := {};
    var flag := "md" + IntToString(size);
    assert none + {flag} == {flag};
    var flag2 := "offset-md" + IntToString(offset);
    assert {flag} + {flag2} == {flag, flag2};
  }

  /** Device-keyed size and offset objects give exactly one flag per device
      key of each, the offset ones under the `offset-` prefix. */
  lemma ColPropsOfObjects(size: map<string, Value>, offset: map<string, Value>)
    ensures ColProps(map["size" := Obj(size), "offset" := Obj(offset)])
            == Ok(DeviceFlags(size, "") + DeviceFlags(offset, "offset-"))
  {
    var none: set<string> := {};
    assert none + DeviceFlags(size, "") == DeviceFlags(size, "");
  }

  /** Setting the same device props twice adds nothing the first call did not. */
  lemma SetDevicePropsIdempotent(container: set<string>, props: Value, prefix: string, defaultPrefix: Option<string>)
    requires SetDeviceProps(container, props, prefix, defaultPrefix).Ok?
    ensures var once := SetDeviceProps(container, props, prefix, defaultPrefix).value;
            SetDeviceProps(once, props, prefix, defaultPrefix) == Ok(once)
  {
  }

  // ---------------------------------------------------------------------------
  // Slider tick labels

  /** `getTickLabel(value)` of the slider and range-slider widgets. With a
      step other than 1 the tick shows its value; otherwise the label at
      position `value - minimum` is shown when there is a non-null one. */
  function TickLabel(value: int, multipleOf: Value, minimum: Value, labels: Value): (r: Result<Value>)
    ensures r.Throw? ==> r.fault == Unmodelled
    ensures Or(multipleOf, Num(1)) != Num(1) ==> r == Ok(Num(value))
    ensures r.Ok? ==> r.value == Num(value) || (Truthy(labels) && !IsNullish(r.value))
    ensures !Truthy(labels) && (minimum.Num? || !Truthy(minimum)) ==> r == Ok(Num(value))
  {
    if Or(multipleOf, Num(1)) != Num(1) then Ok(Num(value))
    else
      var m :- ToNumeric(Or(minimum, Num(0)));
      var index := if m.Num? then Num(value - m.n) else NaN;
      var key := ToString(index);
      if Truthy(labels) && !IsNullish(Prop(labels, key)) then Ok(Prop(labels, key))
      else Ok(Num(value))
  }

  /** With a unit step, the tick `minimum + i` shows the i-th label of an
      array of labels when that label is not null, and its own value when the
      position is off either end or the label is null. */
  lemma TickLabelFromArray(i: int, multipleOf: Value, minimum: int, labels: seq<Value>)
    requires !Truthy(multipleOf) || multipleOf == Num(1)
    ensures 0 <= i < |labels| && !IsNullish(labels[i])
            ==> TickLabel(minimum + i, multipleOf, Num(minimum), Arr(labels)) == Ok(labels[i])
    ensures (i < 0 || i >= |labels| || IsNullish(labels[i]))
            ==> TickLabel(minimum + i, multipleOf, Num(minimum), Arr(labels)) == Ok(Num(minimum + i))
  {
    assert Or(multipleOf, Num(1)) == Num(1);
    assert Or(Num(minimum), Num(0)) == Num(minimum);
    NumberKey(i);
    var key := ToString(Num(minimum + i - minimum));
    assert Prop(Arr(labels), key) == if 0 <= i < |labels| then labels[i] else Undefined;
  }

  /** With a unit step and no minimum (`minimum || 0`), the tick `i` shows the
      i-th label of an array of labels when that label is not null, and its
      own value otherwise. */
  lemma TickLabelMissingMinimum(i: int, multipleOf: Value, minimum: Value, labels: seq<Value>)
    requires !Truthy(multipleOf) || multipleOf == Num(1)
    requires !Truthy(minimum)
    ensures 0 <= i < |labels| && !IsNullish(labels[i])
            ==> TickLabel(i, multipleOf, minimum, Arr(labels)) == Ok(labels[i])
    ensures (i < 0 || i >= |labels| || IsNullish(labels[i]))
            ==> TickLabel(i, multipleOf, minimum, Arr(labels)) == Ok(Num(i))
  {
    TickLabelFalsyMinimum(i, multipleOf, minimum, Arr(labels));
    TickLabelFromArray(i, multipleOf, 0, labels);
  }

  /** A falsy minimum counts as 0. */
  lemma TickLabelFalsyMinimum(value: int, multipleOf: Value, minimum: Value, labels: Value)
    requires !Truthy(minimum)
    ensures TickLabel(value, multipleOf, minimum, labels) == TickLabel(value, multipleOf, Num(0), labels)
  {
  }

  /** The property key of a number reads back as that array index when it is
      not negative and as no index otherwise. */
  lemma NumberKey(i: int)
    ensures i >= 0 ==> ParseIndex(ToString(Num(i))) == Some(i)
    ensures i < 0 ==> ParseIndex(ToString(Num(i))) == None
    ensures ToString(Num(i)) != "length"
  {
    var key := ToString(Num(i));
    if i >= 0 {
      NatToStringRoundTrip(i);
      assert key == NatToString(i);
    } else {
      assert key == "-" + NatToString(-i);
      assert !IsDigit(key[0]);
    }
  }

  // ---------------------------------------------------------------------------
  // Maximum number of items

  /** `canAddItem` of the repeat widgets: no bound when `maxItems` is falsy or
      negative, room when the model is empty, and otherwise `length < max`. */
  function CanAddItem(max: Value, value: Value): (r: Result<bool>)
    ensures !Truthy(max) ==> r == Ok(true)
    ensures max.Num? && max.n < 0 ==> r == Ok(true)
    ensures max.Num? && !Truthy(value) ==> r == Ok(true)
    ensures max.Num? && max.n > 0 && value.Arr? ==> r == Ok(|value.elems| < max.n)
    ensures max.Num? && (value.Arr? || !Truthy(value)) ==> r.Ok?
  {
    if !Truthy(max) then Ok(true)
    else
      var negative :- LessThan(max, Num(0));
      if negative then Ok(true)
      else if !Truthy(value) then Ok(true)
      else LessThan(Prop(value, "length"), max)
  }

  /** Adding one item when the widget allows it keeps a list within a positive
      bound, and the widget allows it exactly when the bound has room. */
  lemma CanAddItemKeepsBound(max: int, xs: seq<Value>, x: Value)
    requires max > 0 && |xs| <= max
    ensures CanAddItem(Num(max), Arr(xs)) == Ok(true) <==> |xs + [x]| <= max
  {
  }

  /** `canAddItem(region)` of the grouped repeat with variants: the same bound,
      applied to the list the model holds under the region's name. */
  function CanAddRegionItem(max: Value, model: Value, regionName: Value): (r: Result<bool>)
    ensures !Truthy(max) ==> r == Ok(true)
    ensures max.Num? && max.n < 0 ==> r == Ok(true)
    ensures max.Num? && max.n > 0 && IsNullish(model) ==> r == Throw(TypeError)
    ensures !IsNullish(model) ==> r == CanAddItem(max, Prop(model, ToString(regionName)))
  {
    if !Truthy(max) then Ok(true)
    else
      var negative :- LessThan(max, Num(0));
      if negative then Ok(true)
      else
        var list :- GetProp(model, ToString(regionName));
        if !Truthy(list) then Ok(true)
        else LessThan(Prop(list, "length"), max)
  }
}
